=== FILE: README.md ===
# CMS Trivial File Catalog rule engine, modelled in Dafny

This project models the rule engine of the XRootD CMS Trivial File Catalog
plugin (`XrdCmsTfc.cc` with `src/XrdCmsTfc.hh`). The plugin translates
logical file names (LFNs) to physical file names (PFNs) and back, using
rewrite rules that are ordered and grouped by protocol:

- `strings.dfy` (module `Strings`): the `split` helper (a `std::getline`
  loop), written as a method with a loop. It is proved equal to the
  reference function `Pieces`. The module also holds the `find` queries
  that `parse` makes.
- `tfc_types.dfy` (module `TfcTypes`): the `XRDCMSTFC_*` status codes, the
  `Rule` record, `Rules`/`ProtocolRules` as `seq<Rule>` and
  `map<string, seq<Rule>>`, and the attributes of one rule element. PCRE is
  an abstract capability `Pcre(compiles, exec)`, and `ExecCode` gives the
  value `pcre_exec` returns for a vector of `OVECCOUNT` = 30 ints.
- `substitution.dfy` (module `Substitution`): `replaceWithRegexp` as a
  method with a loop over capture indices 1 .. rc-1. It is proved against a
  reference reading of templates as literal pieces and `$i` placeholders.
  The module also holds `replace` as written, and `Render`, the one-pass
  rendering that inserts each capture verbatim and that the rule engine
  uses (see Findings).
- `rule_engine.dfy` (module `RuleEngine`): `applyRules`, covering protocol
  lookup, first-match rule selection, chaining before the rewrite (direct)
  or after it (inverse), and rendering. It is modelled as intended and also
  as written.
- `config_loader.dfy` (module `ConfigLoader`): the contact string
  `file:<path>[?option&...]` as a function of the catalog fields, plus
  `parseRule` and the walk over a section of rule elements.
- `catalog.dfy` (module `Catalog`): the `TrivialFileCatalog` class. Its
  fields are those of `src/XrdCmsTfc.hh`. `Parse` updates them in place, and
  `Lfn2Pfn`/`Pfn2Lfn` loop over the configured protocols and change nothing.
- `scenarios.dfy` (module `Scenarios`): worked translations over a prefix
  matcher that stands in for PCRE. They cover first match wins, fall-through
  on the destination, both chaining directions, and the counterexamples
  behind the findings below.

How the model reads the code:

- `replace` is modelled as intended: every occurrence of `$i` is replaced,
  left to right and without overlap, and the surrounding text is kept. The
  code as written is kept as `ReplaceAsWritten` (see Findings).
- Chained `applyRules` calls carry a fuel budget of nested protocol lookups.
  `ApplyRules` returns `None` when the chain goes deeper than the budget,
  and `None` propagates up through every chain in both directions. That
  covers a cyclic chain, on which the source never returns, and also a
  finite chain deeper than the budget, which the source follows to a
  result (`Scenarios.ChainDeeperThanBudget`). `Some(s)` is the source's
  result, with "" meaning no translation. The catalog (`Translate`) counts
  a protocol whose chain exhausts the budget as one without a translation
  and tries the next. The catalog uses `MaxChainDepth` = 16.
- Behaviours of the code that its contact and template formats do not
  suggest:
  - The contact format `file:<path>` suggests a leading scheme, but `parse`
    accepts a contact string that holds "file:" anywhere, and drops
    everything up to the first ':'.
  - A template reads as if each `$i` were filled once, but
    `replaceWithRegexp` replaces `$1`, then `$2`, and so on over the whole
    current result, so a later index also scans the text inserted for an
    earlier one. The loop is modelled as written (`ReplaceWithRegexp`,
    `SubstituteExpands` for captures that hold no `$`); the rule engine
    renders with `Render`, which inserts each capture verbatim (see
    Findings).
  - `parse` has no `return` on success (XrdCmsTfc.cc:260). The model
    returns `Ok` there.

## Model

| member | source | states |
|---|---|---|
| Strings.Split | XrdCmsTfc.cc:48-61 | the getline loop returns exactly `Pieces(s, d)`, and no returned piece holds the delimiter |
| Strings.Pieces | XrdCmsTfc.cc:48-61 | split returns no pieces exactly when the input is empty |
| Strings.PiecesExcludeDelimiter | XrdCmsTfc.cc:48-61 | no piece of `split(s, d)` contains `d` |
| Strings.JoinPieces | XrdCmsTfc.cc:48-61 | joining the pieces with `d` rebuilds a non-empty `s` that does not end in `d`; if `s` ends in `d`, the rebuilt string lacks only that final `d` |
| Strings.PiecesAtDelimiter | XrdCmsTfc.cc:51-53 | a delimiter closes the current piece, which is pushed as it stands |
| Strings.PiecesOfPlainText | XrdCmsTfc.cc:51-53 | a trailing piece without the delimiter is returned only when it is non-empty |
| Strings.IndexOf | XrdCmsTfc.cc:157 | `find(c)` returns the first position holding `c`, or the length when there is none |
| Strings.IndexOfPresent | XrdCmsTfc.cc:156-157 | `find(":")` succeeds on a url that holds a ':' |
| Strings.Find | XrdCmsTfc.cc:309-310 | the match of a placeholder is its first occurrence: no earlier offset starts one, and the offset is the length when there is none |
| Strings.FindLocates | XrdCmsTfc.cc:309-318 | when the placeholder is found, it occurs at the offset the match reports |
| Strings.ContainsChar | XrdCmsTfc.cc:156-157 | a url that holds "file:" holds ':', so the erase at line 157 is well defined |
| Strings.NotContainsWithoutFirstChar | XrdCmsTfc.cc:309-314 | text without '$' holds no placeholder `$i` |
| Strings.FindAfterLiteral | XrdCmsTfc.cc:309-319 | a placeholder after text without '$' is the first match, found at the end of that text |
| TfcTypes.Status.Code | src/XrdCmsTfc.hh:25-30 | every status maps into 0..5, and 0 means exactly `XRDCMSTFC_OK` |
| TfcTypes.CodesDistinct | src/XrdCmsTfc.hh:25-30 | two statuses have the same code only if they are the same status |
| TfcTypes.Pcre.ExecCode | XrdCmsTfc.cc:26 | `pcre_exec` is negative exactly on no match; a positive code counts the stored pairs and never exceeds OVECCOUNT/3 = 10 |
| Substitution.Digit | XrdCmsTfc.cc:343 | `sprintf("%i")` of an index 0..9 is the one decimal digit whose value is that index |
| Substitution.Token | XrdCmsTfc.cc:343-344 | the placeholder for index i is '$' followed by the digit of i, so distinct indices give distinct placeholders |
| Substitution.ReplaceWithRegexp | XrdCmsTfc.cc:326-365 | the loop over i = 1 .. rc-1, in ascending order, yields `Substitute(template, caps, rc)`, i.e. `$1` replaced first, then `$2`, and so on |
| Substitution.SubstitutePlainTemplate | XrdCmsTfc.cc:333-364 | a template without '$' comes back unchanged, whatever the captures |
| Substitution.SubstituteExpands | XrdCmsTfc.cc:337-364 | for captures without '$', the loop renders the template as the reference `Expand`: `$i` becomes capture i for 1 <= i < rc, and every other placeholder and all literal text stay in place |
| Substitution.RenderLiteral | XrdCmsTfc.cc:337-364 | intended rendering: literal text without '$' is copied through |
| Substitution.RenderToken | XrdCmsTfc.cc:343-360 | intended rendering: `$i` becomes capture i verbatim when 1 <= i < rc, and stays as written otherwise |
| Substitution.RenderFlatten | XrdCmsTfc.cc:337-364 | intended rendering: for every well-formed template and any captures, `Render` equals the reference `Expand` |
| Substitution.RenderMatchesLoop | XrdCmsTfc.cc:337-364 | where the captures hold no '$', the loop as written and the intended rendering agree |
| Substitution.SubstituteRescansCapture | XrdCmsTfc.cc:337-360 | as written, template `$1` with capture 1 `$2` and capture 2 `y` gives `y`; rendered verbatim it gives `$2` |
| Substitution.ExpandStep | XrdCmsTfc.cc:360 | one round of the loop fills exactly the placeholder for that index |
| Substitution.ExpandNothing | XrdCmsTfc.cc:337-339 | with rc <= 1 the loop does not run, and the template comes back as written |
| Substitution.ReplaceAllAbsent | XrdCmsTfc.cc:305-324 | intended `replace`: text without the token is kept whole, not turned into "" |
| Substitution.ReplaceAllLiteral | XrdCmsTfc.cc:305-324 | intended `replace`: literal text before an occurrence is copied through |
| Substitution.ReplaceAllToken | XrdCmsTfc.cc:305-324 | intended `replace`: the placeholder becomes the value, and the text after it is kept |
| Substitution.ReplaceAllOtherToken | XrdCmsTfc.cc:337-360 | replacing `$i` leaves a `$j` with j != i as it is |
| Substitution.ReplaceAsWrittenTruncates | XrdCmsTfc.cc:316-323 | as written, `<pre>$1<post>` becomes `<pre><v>`, where the intended result is `<pre><v><post>` |
| Substitution.ReplaceAsWrittenCounterexample | XrdCmsTfc.cc:316-323 | `/a/$1/b` with value `x` gives `/a/x` as written and `/a/x/b` as intended |
| Substitution.ReplaceAsWrittenDropsPlainTemplate | XrdCmsTfc.cc:312-314 | as written, a template without the placeholder becomes "" instead of staying as it is |
| RuleEngine.Rewrite | XrdCmsTfc.cc:407-412 | when the re-match of the path pattern stores no pairs, the name is kept unrendered; otherwise the template is rendered by `Render` |
| RuleEngine.ApplyRulesUnknownProtocol | XrdCmsTfc.cc:377-379 | a protocol without rules translates to "" (with any budget left) |
| RuleEngine.FirstRuleSkipsTo | XrdCmsTfc.cc:384-396 | rules that are not candidates are skipped in list order |
| RuleEngine.ApplyRulesFirstCandidate | XrdCmsTfc.cc:384-420 | the first rule in list order whose destination and path patterns both match decides the result. Without a chain the result is its rewrite. With `direct`, the chained protocol rewrites the name first and the rule rewrites that, unless the chain exhausts the budget, which the result then reports; otherwise the chained protocol rewrites the rule's output. Later rules are never consulted |
| RuleEngine.FirstCandidateRenders | XrdCmsTfc.cc:384-412 | when the first candidate has no chain and its re-match stores pairs, the result is its template rendered as the reference `Expand` says: `$i` becomes capture i verbatim for 1 <= i < rc, whatever the captures hold |
| RuleEngine.ApplyRulesNoCandidate | XrdCmsTfc.cc:384-422 | when no rule of the protocol matches, the result is "" (with any budget left) |
| RuleEngine.ApplyRulesChainFreeIgnoresFuel | XrdCmsTfc.cc:400-418 | a rule map without chains never recurses, so any positive budget gives the same translation and never runs out |
| RuleEngine.InverseSelfChainExhausts | XrdCmsTfc.cc:414-418 | a rule that matches every name and chains into its own protocol exhausts every budget in the inverse direction; the source recurses on it without bound |
| RuleEngine.DirectSelfChainExhausts | XrdCmsTfc.cc:400-405 | the same self-chain exhausts every budget in the direct direction too, so the rule's own rewrite never turns the exhausted chain into a translation |
| RuleEngine.ApplyRulesAsWrittenIgnoresPatterns | XrdCmsTfc.cc:389-396 | as written, a first rule without a chain returns the name unchanged, whether or not any pattern matches |
| ConfigLoader.SchemeRest | XrdCmsTfc.cc:156-157 | erasing up to the first ':' makes the url strictly shorter |
| ConfigLoader.Filename | XrdCmsTfc.cc:163-168 | the file name is the longest prefix without '?', ending where the first '?' is |
| ConfigLoader.ApplyOptionsMeaning | XrdCmsTfc.cc:170-197 | the options walk succeeds exactly when every option is well formed. It then appends the `protocol` values in order across repeated options, the last `destination` wins, and url and file name are untouched |
| ConfigLoader.LastDestinationCons | XrdCmsTfc.cc:193-196 | a later `destination` option overrides an earlier one |
| ConfigLoader.ParseContact | XrdCmsTfc.cc:152-203 | the status is Ok or ErrUrl. Without "file:" the result is ErrUrl and nothing changes. Otherwise url and file name are set, and success implies a non-empty protocol list that extends the old one |
| ConfigLoader.ParseContactErrors | XrdCmsTfc.cc:156-203 | ErrUrl happens exactly when some option is malformed or no protocol is collected. On success, the protocols are the old ones followed by the option values, and the last destination wins |
| ConfigLoader.FirstPieceAsWrittenDefinedness | XrdCmsTfc.cc:163 | `split(url, '?')[0]` is undefined exactly for an empty remainder, and equals the file name wherever it is defined |
| ConfigLoader.BareSchemeReachesEmptySplit | XrdCmsTfc.cc:156-163 | the contact string `file:` passes the scheme check and reaches that indexing with an empty remainder |
| ConfigLoader.ParseRule | XrdCmsTfc.cc:92-149 | ErrParseRule exactly when a pattern does not compile, and then the map is unchanged. Otherwise the status is Ok, exactly one rule is appended at the end of its protocol's list, and every other protocol keeps its list |
| ConfigLoader.EmptyDestinationIsDotStar | XrdCmsTfc.cc:113-114 | an empty `destination-match` and ".*" give the same outcome |
| ConfigLoader.ParseRuleFor | XrdCmsTfc.cc:147 | one element adds its rule to its own protocol's list only, and only when admissible |
| ConfigLoader.LoadRulesAppendsInOrder | XrdCmsTfc.cc:237-259 | a section appends to each protocol exactly its admissible elements' rules, in document order. A rejected element does not stop later ones, and a protocol is present afterwards exactly when it was before or gained a rule |
| Catalog.FirstTranslated | XrdCmsTfc.cc:268-278 | the index of the first protocol with a non-empty translation, where every earlier protocol yields "" or exhausts the budget |
| Catalog.Truncate | XrdCmsTfc.cc:275 | `strncpy` leaves at most `blen` characters of the result, taken from its start, and the whole result when it fits |
| Catalog.Lfn2PfnAsWrittenForgetsInput | XrdCmsTfc.cc:293-294 | as written, after a protocol yields "", every later protocol is asked to translate "" |
| Catalog.FeedRules | XrdCmsTfc.cc:244-258 | the loop over a section's rule nodes computes `LoadRules`, which feeds each element to `parseRule` in order and ignores its status |
| Catalog.TrivialFileCatalog.constructor | src/XrdCmsTfc.hh:36 | a new catalog holds its contact string, no protocols and two empty rule maps |
| Catalog.TrivialFileCatalog.ReadOption | XrdCmsTfc.cc:176-196 | the fields change as `ApplyOption` says: the protocol loop pushes the comma pieces in order, and a malformed option changes nothing |
| Catalog.TrivialFileCatalog.ReadContact | XrdCmsTfc.cc:156-203 | the status and the new url, file name, protocols and destination are exactly `ParseContact` of the old fields |
| Catalog.TrivialFileCatalog.Parse | XrdCmsTfc.cc:152-260 | a contact error is returned with the rule maps untouched, and an unreadable file gives ErrFile. Otherwise `lfn-to-pfn` elements go only into the direct map and `pfn-to-lfn` elements only into the inverse map, in document order, and the status is Ok |
| Catalog.TrivialFileCatalog.Pfn2Lfn | XrdCmsTfc.cc:262-281 | protocols are tried in order with the inverse rules. The first non-empty result gives Ok with at most `blen` characters; otherwise ErrNoPfn2Lfn and nothing written. The catalog does not change |
| Catalog.TrivialFileCatalog.Lfn2Pfn | XrdCmsTfc.cc:283-301 | the same with the direct rules, in the direct direction, on the unchanged logical name each time; otherwise ErrNoLfn2Pfn |
| Scenarios.PrefixRewrite | XrdCmsTfc.cc:407-412 | a matching prefix rule renders `<lit>$1` into `<lit>` followed by the rest of the name |
| Scenarios.StoreToPhysical | XrdCmsTfc.cc:227-229 | the rule `/store/(.*)` to `/physical/$1` maps `/store/<rest>` to `/physical/<rest>` (for any prefix and literal) |
| Scenarios.FirstRuleWins | XrdCmsTfc.cc:384-421 | of two matching rules only the first is applied |
| Scenarios.DestinationFallsThrough | XrdCmsTfc.cc:289-298 | when the destination matches no "srm" rule, the catalog falls through to "direct" |
| Scenarios.SrmRuleFires | XrdCmsTfc.cc:400-418 | a rule that chains to "direct" hands the name to "direct" before its rewrite when direct, and its output after the rewrite when inverse |
| Scenarios.ChainedStoreRule | XrdCmsTfc.cc:401-405 | the chained "direct" step rewrites the input name |
| Scenarios.ChainBeforeRewriteWhenDirect | XrdCmsTfc.cc:401-412 | direct translation chains first: `/store/N` becomes `/store/phys/N`, then `srm://wrap/phys/N` |
| Scenarios.ChainDeeperThanBudget | XrdCmsTfc.cc:400-412 | a finite two-level chain, which the source follows to a translation, gives `None` with a budget of one lookup and the translation with two |
| Scenarios.ChainAfterRewriteWhenInverse | XrdCmsTfc.cc:407-418 | inverse translation chains the rewritten output, which "direct" no longer matches, so the same rules give "" |
| Scenarios.RoundTrip | XrdCmsTfc.cc:262-301 | with direct rule `<a>(.*)` to `<b>$1` and inverse rule `<b>(.*)` to `<a>$1` under one protocol, the facade maps `<a>N` to `<b>N` with the first protocol, and maps that back to `<a>N` |
| Scenarios.ApplyRulesAsWrittenCounterexample | XrdCmsTfc.cc:389-396 | as written, `/other/x` comes back unchanged and `/store/x` is not rewritten; as intended, they give "" and `/physical/x` |
| Scenarios.Lfn2PfnAsWrittenLosesName | XrdCmsTfc.cc:289-298 | as written, protocols "srm" then "direct" find nothing once "srm" has no rules; as intended, "direct" translates the name |
| Scenarios.Lfn2PfnAsWrittenCounterexample | XrdCmsTfc.cc:293 | the same for `/store/x` and the rule `/store/` to `/physical/$1` |

## Left out

- PCRE itself (`pcre_compile`, `pcre_exec`, `pcre_free`): it is a parameter with `compiles` and `exec`. Capture offsets in `ovector` are replaced by the captured texts, and `freeProtocolRules` and the destructor only free memory.
- Xerces parsing and transcoding: the document is a value holding the attributes of each rule element, in document order. The NULL-node and cast checks of `parseRule` (XrdCmsTfc.cc:95-106) concern Xerces objects and are not modelled.
- Opening the configuration file (XrdCmsTfc.cc:205-215) is the `readable` parameter of `Parse`.
- `eDest->Say` logging and `std::cerr` tracing have no effect on results.
- The plugin factory `XrdOucgetName2Name` and the `XrdOucName2Name` base class.
- The source's constructor, `lfn2rfn` and the `lfn2pfn(const char*, std::string&)` overload are declared in src/XrdCmsTfc.hh but not defined in the files modelled. The Dafny constructor takes the contact string and the initial destination as parameters.
- The root-level XrdCmsTfc.hh and the N2NVec adapter are not part of this model.
- In `replaceWithRegexp`, the failure branch for compiling `[$]i` (XrdCmsTfc.cc:354-357) cannot trigger for the indices used, so it is left out. `assert(i<1000000)` is implied by the 10-pair bound.
- The `pathMatchStr`, `destinationMatchStr` and `m_fileType` fields are never assigned and are not modelled.
- RuleEngine.ApplyRules: the source recurses through chains without bound; the model stops at the fuel budget (`MaxChainDepth` = 16 in the catalog) and returns `None`, which the catalog reads as no translation from that protocol. That matches the source on a cyclic chain, where it never returns, but not on a finite chain deeper than the budget, which the source follows to a translation and the model reports as none.
- Substitution.ReplaceWithRegexp: a capture group below `rc` that took no part in the match has offset -1 in `ovector`, and `substr` (XrdCmsTfc.cc:348) then throws `std::out_of_range`; the model's captures are texts, so such a group renders as its captured text and the exception is not modelled.
- Catalog.TrivialFileCatalog.Pfn2Lfn: the buffer is modelled as the text `strncpy` leaves. Its NUL padding, and the missing terminator when the result fills `blen`, are not modelled; `blen` is an `int` in the source and a `nat` here, so a negative length (converted to a huge `size_t` by `strncpy`) is not modelled.
- Catalog.TrivialFileCatalog.Lfn2Pfn: the same buffer simplification as `Pfn2Lfn`, including `blen` as a `nat`.
- Concurrency: there is none in the source.

## Findings

| source | as written | input that shows it | evidently intended | confidence | as-written member | corrected member |
|---|---|---|---|---|---|---|
| XrdCmsTfc.cc:389-396, 410 | `rc` starts at 0 and no `pcre_exec` result is stored in it. No rule is ever skipped, and the template is never rendered | rule `/store/(.*)` to `/physical/$1` under "direct": `/other/x` gives `/other/x` and `/store/x` gives `/store/x` | skip rules that do not match, and render the first matching rule: "" and `/physical/x` | not executed | RuleEngine.ApplyRulesAsWritten, Scenarios.ApplyRulesAsWrittenCounterexample | RuleEngine.ApplyRules (RuleEngine.ApplyRulesFirstCandidate) |
| XrdCmsTfc.cc:337-360 | `replaceWithRegexp` replaces `$1`, then `$2`, ... over the whole current result, so capture i, once inserted, has every `$j` with i < j < rc in it replaced again | template `$1`, path pattern `^/(.*)/(.*)$` on `/$2/y`: capture 1 `$2`, capture 2 `y`, rc 3; the result is `y` | each capture inserted verbatim: `$2` | not executed | Substitution.ReplaceWithRegexp, Substitution.SubstituteRescansCapture | Substitution.Render (Substitution.RenderFlatten), used by RuleEngine.Rewrite |
| XrdCmsTfc.cc:312-323 | `replace` keeps the text before the placeholder, appends the value and drops the rest; a template without the placeholder becomes "" | template `/a/$1/b`, capture `x`: `/a/x`; template `/fixed`: "" | `/a/x/b` and `/fixed` | not executed | Substitution.ReplaceAsWritten, Substitution.ReplaceAsWrittenCounterexample | Substitution.ReplaceAll (Substitution.SubstituteExpands) |
| XrdCmsTfc.cc:293 | `lfn2pfn` applies the rules with `direct=false`, and overwrites the logical name with each protocol's result | protocols `srm,direct`, no "srm" rules, "direct" rule `/store/(.*)` to `/physical/$1`, name `/store/x`: no mapping | the direct direction on the unchanged name: `/physical/x` | not executed | Catalog.Lfn2PfnAsWritten, Scenarios.Lfn2PfnAsWrittenCounterexample | Catalog.TrivialFileCatalog.Lfn2Pfn |
| XrdCmsTfc.cc:163 | `split(m_url, '?')[0]` indexes the first piece, and `split("")` has none | contact string `file:` | the file name is the text before '?', here "" | not executed | ConfigLoader.FirstPieceAsWritten, ConfigLoader.BareSchemeReachesEmptySplit | ConfigLoader.Filename (ConfigLoader.FirstPieceAsWrittenDefinedness) |

=== FILE: catalog.dfy ===
/**
 * The catalog object of src/XrdCmsTfc.hh and its stateful operations in
 * XrdCmsTfc.cc: `parse` fills the fields from the contact string and the
 * rule document; `lfn2pfn` and `pfn2lfn` try the configured protocols in
 * order and hand back the first translation, cut to the caller's buffer.
 */
module Catalog {
  import opened Strings
  import opened TfcTypes
  import opened RuleEngine
  import opened ConfigLoader

  /**
   * Budget of nested protocol lookups for one translation. The source has no
   * bound on chaining and never returns from a chain deeper than any budget;
   * the catalog counts a protocol whose chain exhausts it as one that yields
   * no translation (see `Translate`).
   */
  const MaxChainDepth: nat := 16

  /**
   * Reference for the facade: the position of the first protocol whose
   * translation is not empty, or `|protocols|` when every one yields "".
   */
  function FirstTranslated(re: Pcre, rules: ProtocolRules, protocols: seq<string>, destination: string,
                           direct: bool, name: string, fuel: nat): (k: nat)
    ensures k <= |protocols|
    ensures forall j :: 0 <= j < k ==> Translate(re, rules, protocols[j], destination, direct, name, fuel) == ""
    ensures k < |protocols| ==> Translate(re, rules, protocols[k], destination, direct, name, fuel) != ""
  {
    if protocols == [] then 0
    else if Translate(re, rules, protocols[0], destination, direct, name, fuel) != "" then 0
    else 1 + FirstTranslated(re, rules, protocols[1..], destination, direct, name, fuel)
  }

  /** What `strncpy(buff, s, blen)` leaves as text: at most `blen` characters of `s`, from its start. */
  function Truncate(s: string, blen: nat): (t: string)
    ensures |t| <= blen && t <= s
    ensures |s| <= blen ==> t == s
  {
    if |s| <= blen then s else s[..blen]
  }

  /**
   * `lfn2pfn` as written: it applies the direct rules with `direct == false`
   * (chains after the rewrite) and stores each protocol's result in its own
   * input, so a protocol that yields "" leaves "" as the input of the next.
   */
  function Lfn2PfnAsWritten(re: Pcre, rules: ProtocolRules, protocols: seq<string>, destination: string,
                            lfn: string, fuel: nat): Option<string>
  {
    if protocols == [] then None
    else
      var tmp := Translate(re, rules, protocols[0], destination, false, lfn, fuel);
      if tmp != "" then Some(tmp) else Lfn2PfnAsWritten(re, rules, protocols[1..], destination, tmp, fuel)
  }

  /** As written, every protocol after one that yields "" is asked to translate "" instead of the logical name. */
  lemma Lfn2PfnAsWrittenForgetsInput(re: Pcre, rules: ProtocolRules, protocols: seq<string>, destination: string,
                                     lfn: string, fuel: nat)
    requires protocols != [] && Translate(re, rules, protocols[0], destination, false, lfn, fuel) == ""
    ensures Lfn2PfnAsWritten(re, rules, protocols, destination, lfn, fuel)
         == Lfn2PfnAsWritten(re, rules, protocols[1..], destination, "", fuel)
  {
  }

  /**
   * The loop of `parse` over the rule elements of one section, calling
   * `parseRule` on each with the map it fills; statuses are ignored.
   */
  method FeedRules(re: Pcre, rules: ProtocolRules, elems: seq<RuleElement>) returns (out: ProtocolRules)
    ensures out == LoadRules(re, rules, elems)
  {
    out := rules;
    var i := 0;
    while i < |elems|
      invariant 0 <= i <= |elems|
      invariant LoadRules(re, out, elems[i..]) == LoadRules(re, rules, elems)
    {
      out := ParseRule(re, elems[i], out).1;
      assert elems[i..][1..] == elems[i + 1..];
      i := i + 1;
    }
  }

  class TrivialFileCatalog {
    /** The regular-expression library the rules are compiled and matched with. */
    const pcre: Pcre
    /** Rules for LFN to PFN. */
    var directRules: ProtocolRules
    /** Rules for PFN to LFN. */
    var inverseRules: ProtocolRules
    var filename: string
    var protocols: seq<string>
    var destination: string
    var url: string

    /** The fields the contact string sets. */
    function ContactFields(): Contact
      reads this
    {
      Contact(url, filename, protocols, destination)
    }

    /**
     * A catalog for contact string `url`, with no protocols and no rules yet.
     * The source's constructor is not part of this model; the initial
     * destination is a parameter.
     */
    constructor (pcre: Pcre, url: string, destination: string)
      ensures this.pcre == pcre
      ensures ContactFields() == Contact(url, "", [], destination)
      ensures directRules == map[] && inverseRules == map[]
    {
      this.pcre := pcre;
      this.url := url;
      this.filename := "";
      this.protocols := [];
      this.destination := destination;
      this.directRules := map[];
      this.inverseRules := map[];
    }

    /**
     * One `key=value` option of the contact string: `protocol` appends its
     * comma-separated values to the protocol list, `destination` replaces
     * the destination, other keys change nothing; an option that does not
     * split into exactly two tokens is rejected and changes nothing.
     */
    method ReadOption(option: string) returns (ok: bool)
      modifies this`protocols, this`destination
      ensures ok <==> ApplyOption(option, old(ContactFields())).Some?
      ensures ContactFields() == if ok then ApplyOption(option, old(ContactFields())).value else old(ContactFields())
    {
      var argTokens := Split(option, '=');
      if |argTokens| != 2 {
        return false;
      }
      var key, value := argTokens[0], argTokens[1];
      if key == "protocol" {
        var prots := Split(value, ',');
        var j := 0;
        while j < |prots|
          invariant 0 <= j <= |prots|
          invariant protocols == old(protocols) + prots[..j]
          invariant destination == old(destination)
        {
          protocols := protocols + [prots[j]];
          j := j + 1;
        }
        assert prots[..j] == prots;
        assert ApplyOption(option, old(ContactFields())) == Some(old(ContactFields()).(protocols := old(protocols) + prots));
      } else if key == "destination" {
        destination := value;
        assert ApplyOption(option, old(ContactFields())) == Some(old(ContactFields()).(destination := value));
      } else {
        assert ApplyOption(option, old(ContactFields())) == Some(old(ContactFields()));
      }
      return true;
    }

    /**
     * The contact-string part of `parse`: the url must hold "file:"; the
     * url then loses everything up to the first ':', the file name is the
     * text before '?', the options after '?' are read in order, and at least
     * one protocol must be configured.
     */
    method ReadContact() returns (status: Status)
      modifies this`url, this`filename, this`protocols, this`destination
      ensures (status, ContactFields()) == ParseContact(old(ContactFields()))
    {
      if !Contains(url, "file:") {
        return ErrUrl;
      }
      url := SchemeRest(url);
      // The source first takes split(url, '?')[0] (see FirstPieceAsWritten),
      // then the text before '?' when there is one: both are Filename(url).
      filename := Filename(url);
      ghost var start := ContactFields();
      var quesPos := IndexOf(url, '?');
      if quesPos < |url| {
        var optionTokens := Split(url[quesPos + 1..], '&');
        assert optionTokens == OptionTokens(url);
        var i := 0;
        while i < |optionTokens|
          invariant 0 <= i <= |optionTokens|
          invariant ApplyOptions(optionTokens[i..], ContactFields()) == ApplyOptions(optionTokens, start)
        {
          var ok := ReadOption(optionTokens[i]);
          if !ok {
            return ErrUrl;
          }
          assert optionTokens[i..][1..] == optionTokens[i + 1..];
          i := i + 1;
        }
      }
      if protocols == [] {
        return ErrUrl;
      }
      return Ok;
    }

    /**
     * `parse`: reads the contact string, then, when the file can be read,
     * feeds every `lfn-to-pfn` element to the direct rules and every
     * `pfn-to-lfn` element to the inverse rules, in document order. A failing
     * rule does not stop the ones after it. `readable` stands for opening
     * the configuration file; `doc` is the parsed document.
     */
    method Parse(doc: Document, readable: bool) returns (status: Status)
      modifies this
      ensures var (contactStatus, c) := ParseContact(old(ContactFields()));
              && ContactFields() == c
              && status == (if contactStatus != Ok then contactStatus else if !readable then ErrFile else Ok)
      ensures status == Ok ==>
                && directRules == LoadRules(pcre, old(directRules), doc.lfnToPfn)
                && inverseRules == LoadRules(pcre, old(inverseRules), doc.pfnToLfn)
      ensures status != Ok ==> directRules == old(directRules) && inverseRules == old(inverseRules)
    {
      status := ReadContact();
      if status != Ok {
        return;
      }
      if !readable {
        return ErrFile;
      }
      directRules := FeedRules(pcre, directRules, doc.lfnToPfn);
      inverseRules := FeedRules(pcre, inverseRules, doc.pfnToLfn);
      // The source's parse ends without a return statement here; Ok is what it evidently means.
      return Ok;
    }

    /**
     * `pfn2lfn`: the inverse rules of each configured protocol in turn; the
     * first non-empty result is returned with status Ok, cut to `blen`
     * characters; when every protocol yields "" the status is ErrNoPfn2Lfn
     * and nothing is written. The catalog is not changed.
     */
    method Pfn2Lfn(pfn: string, blen: nat) returns (status: Status, buff: string)
      ensures var k := FirstTranslated(pcre, inverseRules, protocols, destination, false, pfn, MaxChainDepth);
              && (status == Ok <==> k < |protocols|)
              && (status == Ok ==>
                    buff == Truncate(Translate(pcre, inverseRules, protocols[k], destination, false, pfn, MaxChainDepth), blen))
              && (status != Ok ==> status == ErrNoPfn2Lfn && buff == "")
    {
      var i := 0;
      while i < |protocols|
        invariant 0 <= i <= |protocols|
        invariant forall j :: 0 <= j < i ==>
                    Translate(pcre, inverseRules, protocols[j], destination, false, pfn, MaxChainDepth) == ""
      {
        var tmpLfn := Translate(pcre, inverseRules, protocols[i], destination, false, pfn, MaxChainDepth);
        if tmpLfn != "" {
          return Ok, Truncate(tmpLfn, blen);
        }
        i := i + 1;
      }
      return ErrNoPfn2Lfn, "";
    }

    /**
     * `lfn2pfn`, as intended: the direct rules (chains before the rewrite) of
     * each configured protocol in turn, each applied to the logical name
     * itself; the first non-empty result is returned with status Ok, cut to
     * `blen` characters; otherwise ErrNoLfn2Pfn. The catalog is not changed.
     */
    method Lfn2Pfn(lfn: string, blen: nat) returns (status: Status, buff: string)
      ensures var k := FirstTranslated(pcre, directRules, protocols, destination, true, lfn, MaxChainDepth);
              && (status == Ok <==> k < |protocols|)
              && (status == Ok ==>
                    buff == Truncate(Translate(pcre, directRules, protocols[k], destination, true, lfn, MaxChainDepth), blen))
              && (status != Ok ==> status == ErrNoLfn2Pfn && buff == "")
    {
      var i := 0;
      while i < |protocols|
        invariant 0 <= i <= |protocols|
        invariant forall j :: 0 <= j < i ==>
                    Translate(pcre, directRules, protocols[j], destination, true, lfn, MaxChainDepth) == ""
      {
        var tmpPfn := Translate(pcre, directRules, protocols[i], destination, true, lfn, MaxChainDepth);
        if tmpPfn != "" {
          return Ok, Truncate(tmpPfn, blen);
        }
        i := i + 1;
      }
      return ErrNoLfn2Pfn, "";
    }
  }
}

=== FILE: config_loader.dfy ===
/**
 * Configuration loading of XrdCmsTfc.cc as values: the contact string
 * `file:<path>[?option&option...]` read by `parse`, rule admission by
 * `parseRule`, and the walk over the rule elements of the document. The
 * catalog object that stores the results is in module Catalog.
 */
module ConfigLoader {
  import opened Strings
  import opened TfcTypes

  /** The catalog fields `parse` reads and writes while it reads the contact string. */
  datatype Contact = Contact(url: string, filename: string, protocols: seq<string>, destination: string)

  /** The contact string after the first ':', which `parse` keeps in `m_url` once it has found "file:". */
  function SchemeRest(url: string): (rest: string)
    requires Contains(url, "file:")
    ensures |rest| < |url|
  {
    ContainsChar(url, "file:", ':');
    IndexOfPresent(url, ':');
    url[IndexOf(url, ':') + 1..]
  }

  /** The configuration file name: the text before the first '?'. */
  function Filename(rest: string): (f: string)
    ensures f <= rest && '?' !in f
    ensures f == rest || rest[|f|] == '?'
  {
    rest[..IndexOf(rest, '?')]
  }

  /** The `&`-separated options after the first '?', or none when there is no '?'. */
  function OptionTokens(rest: string): seq<string>
  {
    var q := IndexOf(rest, '?');
    if q == |rest| then [] else Pieces(rest[q + 1..], '&')
  }

  /** An option is well formed when `split` on '=' gives exactly a key and a value. */
  predicate WellFormedOption(option: string)
  {
    |Pieces(option, '=')| == 2
  }

  /** The effect of one option: `protocol` appends its comma-separated values, `destination` replaces the destination, other keys change nothing. */
  function ApplyOption(option: string, c: Contact): Option<Contact>
  {
    var arg := Pieces(option, '=');
    if |arg| != 2 then None
    else if arg[0] == "protocol" then Some(c.(protocols := c.protocols + Pieces(arg[1], ',')))
    else if arg[0] == "destination" then Some(c.(destination := arg[1]))
    else Some(c)
  }

  /** The options in order; the first malformed one stops the walk (false), keeping what the earlier ones changed. */
  function ApplyOptions(opts: seq<string>, c: Contact): (bool, Contact)
    decreases |opts|
  {
    if opts == [] then (true, c)
    else match ApplyOption(opts[0], c)
      case None => (false, c)
      case Some(c') => ApplyOptions(opts[1..], c')
  }

  /** Reference: the protocol names the options list, option by option and comma piece by comma piece. */
  function ProtocolValues(opts: seq<string>): seq<string>
  {
    if opts == [] then []
    else
      var arg := Pieces(opts[0], '=');
      (if |arg| == 2 && arg[0] == "protocol" then Pieces(arg[1], ',') else []) + ProtocolValues(opts[1..])
  }

  /** Reference: the value of the last `destination` option, or `d` when there is none. */
  function LastDestination(opts: seq<string>, d: string): string
  {
    if opts == [] then d
    else
      var arg := Pieces(opts[|opts| - 1], '=');
      if |arg| == 2 && arg[0] == "destination" then arg[1] else LastDestination(opts[..|opts| - 1], d)
  }

  /** The destination after one option. */
  function DestinationAfter(option: string, d: string): string
  {
    var arg := Pieces(option, '=');
    if |arg| == 2 && arg[0] == "destination" then arg[1] else d
  }

  lemma {:induction false} LastDestinationCons(o: string, opts: seq<string>, d: string)
    ensures LastDestination([o] + opts, d) == LastDestination(opts, DestinationAfter(o, d))
    decreases |opts|
  {
    if opts != [] {
      var all := [o] + opts;
      assert all[..|all| - 1] == [o] + opts[..|opts| - 1];
      assert all[|all| - 1] == opts[|opts| - 1];
      LastDestinationCons(o, opts[..|opts| - 1], d);
    } else {
      assert ([o] + opts)[..0] == [];
    }
  }

  /**
   * The options walk succeeds exactly when every option is well formed; it
   * then appends the `protocol` values in order, across repeated options,
   * and the last `destination` wins. It never touches the url or the file
   * name.
   */
  lemma {:induction false} ApplyOptionsMeaning(opts: seq<string>, c: Contact)
    ensures ApplyOptions(opts, c).0 <==> forall i :: 0 <= i < |opts| ==> WellFormedOption(opts[i])
    ensures ApplyOptions(opts, c).0 ==>
              ApplyOptions(opts, c).1 == c.(protocols := c.protocols + ProtocolValues(opts),
                                            destination := LastDestination(opts, c.destination))
    ensures ApplyOptions(opts, c).1.url == c.url && ApplyOptions(opts, c).1.filename == c.filename
    decreases |opts|
  {
    if opts != [] {
      var o := opts[0];
      assert opts == [o] + opts[1..];
      LastDestinationCons(o, opts[1..], c.destination);
      match ApplyOption(o, c)
      case None =>
      case Some(c') =>
        ApplyOptionsMeaning(opts[1..], c');
        assert forall i :: 1 <= i < |opts| ==> opts[i] == opts[1..][i - 1];
        if ApplyOptions(opts, c).0 {
          var pv := if Pieces(o, '=')[0] == "protocol" then Pieces(Pieces(o, '=')[1], ',') else [];
          var later := ProtocolValues(opts[1..]);
          assert ProtocolValues(opts) == pv + later;
          assert c'.protocols == c.protocols + pv;
          AppendAssoc(c.protocols, pv, later);
        }
    }
  }

  /**
   * The contact-string part of `parse`, from the catalog fields before the
   * call to the status and the fields after it: no "file:" anywhere is a URL
   * error with nothing changed; otherwise the url loses everything up to the
   * first ':', the file name is the text before '?', the options are
   * applied, and a malformed option or an empty protocol list is a URL error.
   */
  function ParseContact(c: Contact): (out: (Status, Contact))
    ensures out.0 == Ok || out.0 == ErrUrl
    ensures !Contains(c.url, "file:") ==> out == (ErrUrl, c)
    ensures Contains(c.url, "file:") ==>
              out.1.url == SchemeRest(c.url) && out.1.filename == Filename(out.1.url)
    ensures out.0 == Ok ==> out.1.protocols != [] && c.protocols <= out.1.protocols
  {
    if !Contains(c.url, "file:") then (ErrUrl, c)
    else
      var rest := SchemeRest(c.url);
      var c1 := c.(url := rest, filename := Filename(rest));
      var (ok, c2) := if IndexOf(rest, '?') == |rest| then (true, c1) else ApplyOptions(OptionTokens(rest), c1);
      assert c2.url == rest && c2.filename == Filename(rest) by {
        ApplyOptionsMeaning(OptionTokens(rest), c1);
      }
      assert ok ==> c1.protocols <= c2.protocols by {
        ApplyOptionsMeaning(OptionTokens(rest), c1);
      }
      if !ok || c2.protocols == [] then (ErrUrl, c2) else (Ok, c2)
  }

  /**
   * The three URL errors of `parse` and nothing else: no "file:", a malformed
   * option, or no protocol at all once the options are read. On success the
   * protocol list grows by the `protocol` values in order and the last
   * `destination` wins.
   */
  lemma ParseContactErrors(c: Contact)
    requires Contains(c.url, "file:")
    ensures var opts := OptionTokens(SchemeRest(c.url));
            var (status, c') := ParseContact(c);
            && (status == ErrUrl <==>
                  (exists i :: 0 <= i < |opts| && !WellFormedOption(opts[i]))
                  || c.protocols + ProtocolValues(opts) == [])
            && (status == Ok ==>
                  c'.protocols == c.protocols + ProtocolValues(opts)
                  && c'.destination == LastDestination(opts, c.destination))
  {
    var rest := SchemeRest(c.url);
    var c1 := c.(url := rest, filename := Filename(rest));
    ApplyOptionsMeaning(OptionTokens(rest), c1);
  }

  /**
   * `split(m_url, '?')[0]` as written: it indexes the first piece, and there
   * is none when the text after "file:" is empty (None here: an out-of-range
   * element of an empty `std::vector`).
   */
  function FirstPieceAsWritten(rest: string): Option<string>
  {
    var ps := Pieces(rest, '?');
    if ps == [] then None else Some(ps[0])
  }

  /** The indexing is undefined exactly for an empty remainder; wherever it is defined it equals `Filename`. */
  lemma FirstPieceAsWrittenDefinedness(rest: string)
    ensures FirstPieceAsWritten(rest).None? <==> rest == ""
    ensures FirstPieceAsWritten(rest).Some? ==> FirstPieceAsWritten(rest).value == Filename(rest)
  {
  }

  /** The contact string "file:" reaches that indexing with an empty remainder. */
  lemma BareSchemeReachesEmptySplit()
    ensures Contains("file:", "file:") && SchemeRest("file:") == "" && FirstPieceAsWritten(SchemeRest("file:")).None?
  {
    var u: string := "file:";
    assert Contains(u, "file:");
    assert IndexOf(u, ':') == 4 by {
      assert u[4..] == ":" && u[3..] == "e:" && u[2..] == "le:" && u[1..] == "ile:";
      assert IndexOf(u[4..], ':') == 0;
      assert IndexOf(u[3..], ':') == 1;
      assert IndexOf(u[2..], ':') == 2;
      assert IndexOf(u[1..], ':') == 3;
    }
  }

  // Rule admission.

  /** The destination pattern a rule element stands for: an empty `destination-match` means ".*". */
  function DestinationPattern(e: RuleElement): string
  {
    if e.destinationMatch == "" then ".*" else e.destinationMatch
  }

  /** Whether both patterns of the element compile. */
  predicate Admissible(re: Pcre, e: RuleElement)
  {
    re.compiles(e.pathMatch) && re.compiles(DestinationPattern(e))
  }

  /** The rule an admissible element becomes. */
  function RuleOf(e: RuleElement): Rule
  {
    Rule(e.pathMatch, DestinationPattern(e), e.result, e.chain)
  }

  /**
   * `parseRule`: a pattern that does not compile rejects the rule and leaves
   * the map as it was; otherwise exactly one rule is appended at the end of
   * the element's protocol list and every other protocol keeps its list.
   */
  function ParseRule(re: Pcre, e: RuleElement, rules: ProtocolRules): (out: (Status, ProtocolRules))
    ensures out.0 == Ok || out.0 == ErrParseRule
    ensures out.0 == ErrParseRule <==> !Admissible(re, e)
    ensures out.0 == ErrParseRule ==> out.1 == rules
    ensures out.0 == Ok ==>
              && out.1.Keys == rules.Keys + {e.protocol}
              && out.1[e.protocol] == RulesFor(rules, e.protocol) + [RuleOf(e)]
              && forall p :: p in rules && p != e.protocol ==> out.1[p] == rules[p]
  {
    if !re.compiles(e.pathMatch) then (ErrParseRule, rules)
    else if !re.compiles(DestinationPattern(e)) then (ErrParseRule, rules)
    else (Ok, rules[e.protocol := RulesFor(rules, e.protocol) + [RuleOf(e)]])
  }

  /** A missing `destination-match` attribute and the value ".*" give the same outcome. */
  lemma EmptyDestinationIsDotStar(re: Pcre, e: RuleElement, rules: ProtocolRules)
    ensures ParseRule(re, e.(destinationMatch := ""), rules) == ParseRule(re, e.(destinationMatch := ".*"), rules)
  {
  }

  /** The rule elements of one section fed to `parseRule` in document order, failures ignored. */
  function LoadRules(re: Pcre, rules: ProtocolRules, elems: seq<RuleElement>): ProtocolRules
    decreases |elems|
  {
    if elems == [] then rules else LoadRules(re, ParseRule(re, elems[0], rules).1, elems[1..])
  }

  /** Reference: the rules the admissible elements for `protocol` contribute, in document order. */
  function Admitted(re: Pcre, elems: seq<RuleElement>, protocol: string): seq<Rule>
  {
    if elems == [] then []
    else
      (if Admissible(re, elems[0]) && elems[0].protocol == protocol then [RuleOf(elems[0])] else [])
      + Admitted(re, elems[1..], protocol)
  }

  /**
   * Loading a section appends to each protocol's list exactly the rules of
   * its admissible elements, in document order; a rejected element does not
   * stop the ones after it. A protocol is present afterwards exactly when it
   * was before or gained a rule.
   */
  lemma {:induction false} LoadRulesAppendsInOrder(re: Pcre, rules: ProtocolRules, elems: seq<RuleElement>, protocol: string)
    ensures RulesFor(LoadRules(re, rules, elems), protocol) == RulesFor(rules, protocol) + Admitted(re, elems, protocol)
    ensures protocol in LoadRules(re, rules, elems) <==> protocol in rules || Admitted(re, elems, protocol) != []
    decreases |elems|
  {
    if elems != [] {
      var next := ParseRule(re, elems[0], rules).1;
      LoadRulesAppendsInOrder(re, next, elems[1..], protocol);
      ParseRuleFor(re, elems[0], rules, protocol);
      var own := if Admissible(re, elems[0]) && elems[0].protocol == protocol then [RuleOf(elems[0])] else [];
      assert Admitted(re, elems, protocol) == own + Admitted(re, elems[1..], protocol);
      AppendAssoc(RulesFor(rules, protocol), own, Admitted(re, elems[1..], protocol));
    }
  }

  /** What one element contributes to a protocol's list and to its presence. */
  lemma ParseRuleFor(re: Pcre, e: RuleElement, rules: ProtocolRules, protocol: string)
    ensures var own := if Admissible(re, e) && e.protocol == protocol then [RuleOf(e)] else [];
            var next := ParseRule(re, e, rules).1;
            && RulesFor(next, protocol) == RulesFor(rules, protocol) + own
            && (protocol in next <==> protocol in rules || own != [])
  {
  }
}

=== FILE: rule_engine.dfy ===
/**
 * Rule application of XrdCmsTfc.cc (`applyRules`): look the protocol up,
 * take the first rule whose destination and path patterns both match, chain
 * into another protocol before the local rewrite (direct, LFN to PFN) or
 * after it (inverse, PFN to LFN), and render the rule's result template.
 *
 * The source recurses into chained protocols without any bound. The model
 * gives every call a `fuel` budget of nested protocol lookups: a call whose
 * budget is spent yields None, and None propagates through every chain
 * above it, in both directions. None thus means the chain went deeper than
 * the budget, whether it is a cycle the source never leaves or a finite
 * chain the source follows to a result. Some(s) is the source's result,
 * where "" means no translation.
 */
module RuleEngine {
  import opened TfcTypes
  import opened Substitution

  /** A rule is a candidate when its destination pattern matches `destination` and its path pattern matches `name`. */
  predicate Candidate(re: Pcre, r: Rule, destination: string, name: string)
  {
    re.exec(r.destinationMatch, destination).Some? && re.exec(r.pathMatch, name).Some?
  }

  /**
   * The local rewrite of a rule: the path pattern is matched again against
   * `name`; when pcre_exec reports stored pairs the template is rendered from
   * them, otherwise `name` is kept.
   */
  function Rewrite(re: Pcre, r: Rule, name: string): (out: string)
    ensures re.ExecCode(r.pathMatch, name) <= 0 ==> out == name
  {
    var rc := re.ExecCode(r.pathMatch, name);
    if rc > 0 then Render(r.result, re.exec(r.pathMatch, name).value, rc) else name
  }

  /** `applyRules` (with the match results read, as intended): None when the chain budget runs out, else the result, "" meaning no translation. */
  function ApplyRules(re: Pcre, rules: ProtocolRules, protocol: string, destination: string,
                      direct: bool, name: string, fuel: nat): Option<string>
    decreases fuel, 2, 0
  {
    if fuel == 0 then None
    else if protocol !in rules then Some("")
    else FirstRule(re, rules, rules[protocol], destination, direct, name, fuel)
  }

  /** The scan over one protocol's rules, in list order. */
  function FirstRule(re: Pcre, rules: ProtocolRules, rs: seq<Rule>, destination: string,
                     direct: bool, name: string, fuel: nat): Option<string>
    requires fuel > 0
    decreases fuel, 1, |rs|
  {
    if rs == [] then Some("")
    else if Candidate(re, rs[0], destination, name) then Fire(re, rules, rs[0], destination, direct, name, fuel)
    else FirstRule(re, rules, rs[1..], destination, direct, name, fuel)
  }

  /** What the selected rule produces: chain, rewrite, chain, according to the direction. */
  function Fire(re: Pcre, rules: ProtocolRules, r: Rule, destination: string,
                direct: bool, name: string, fuel: nat): Option<string>
    requires fuel > 0
    decreases fuel, 0, 0
  {
    var before := if direct && r.chain != "" then ApplyRules(re, rules, r.chain, destination, direct, name, fuel - 1) else Some(name);
    match before
    case None => None
    case Some(b) =>
      var rendered := Rewrite(re, r, b);
      if !direct && r.chain != "" then ApplyRules(re, rules, r.chain, destination, direct, rendered, fuel - 1) else Some(rendered)
  }

  /**
   * The translation a caller of `applyRules` sees. A chain that goes deeper
   * than the budget counts as no translation: that covers a cyclic chain,
   * on which the source never returns, and also a finite chain that the
   * source would follow to its end.
   */
  function Translate(re: Pcre, rules: ProtocolRules, protocol: string, destination: string,
                     direct: bool, name: string, fuel: nat): string
  {
    match ApplyRules(re, rules, protocol, destination, direct, name, fuel)
    case None => ""
    case Some(t) => t
  }

  /** An unknown protocol translates to "". */
  lemma ApplyRulesUnknownProtocol(re: Pcre, rules: ProtocolRules, protocol: string, destination: string,
                                  direct: bool, name: string, fuel: nat)
    requires protocol !in rules
    ensures ApplyRules(re, rules, protocol, destination, direct, name, fuel) == if fuel == 0 then None else Some("")
  {
  }

  lemma {:induction false} FirstRuleSkipsTo(re: Pcre, rules: ProtocolRules, rs: seq<Rule>, destination: string,
                                            direct: bool, name: string, fuel: nat, k: nat)
    requires fuel > 0 && k <= |rs|
    requires forall j :: 0 <= j < k ==> !Candidate(re, rs[j], destination, name)
    ensures FirstRule(re, rules, rs, destination, direct, name, fuel)
         == FirstRule(re, rules, rs[k..], destination, direct, name, fuel)
    decreases k
  {
    if k > 0 {
      assert !Candidate(re, rs[0], destination, name);
      FirstRuleSkipsTo(re, rules, rs[1..], destination, direct, name, fuel, k - 1);
      assert rs[1..][k - 1..] == rs[k..];
    }
  }

  /**
   * The first candidate rule in list order decides the translation: with no
   * chain it is the rule's own rewrite of the name; in the direct direction
   * the chained protocol first rewrites the name and the rule then rewrites
   * that, unless the chain exhausts the budget; in the inverse direction the
   * chained protocol rewrites the rule's output. Later rules are never
   * consulted.
   */
  lemma ApplyRulesFirstCandidate(re: Pcre, rules: ProtocolRules, protocol: string, destination: string,
                                 direct: bool, name: string, fuel: nat, k: nat)
    requires fuel > 0 && protocol in rules && k < |rules[protocol]|
    requires Candidate(re, rules[protocol][k], destination, name)
    requires forall j :: 0 <= j < k ==> !Candidate(re, rules[protocol][j], destination, name)
    ensures var r := rules[protocol][k];
            var out := ApplyRules(re, rules, protocol, destination, direct, name, fuel);
            var inner := ApplyRules(re, rules, r.chain, destination, direct, name, fuel - 1);
            && (r.chain == "" ==> out == Some(Rewrite(re, r, name)))
            && (direct && r.chain != "" ==>
                  out == if inner.None? then None else Some(Rewrite(re, r, inner.value)))
            && (!direct && r.chain != "" ==>
                  out == ApplyRules(re, rules, r.chain, destination, direct, Rewrite(re, r, name), fuel - 1))
  {
    FirstRuleSkipsTo(re, rules, rules[protocol], destination, direct, name, fuel, k);
  }

  /**
   * The first candidate, without a chain, renders its template as the
   * reference `Expand` says: each `$i` with 1 <= i < rc becomes capture i of
   * the path match, inserted verbatim whatever it holds.
   */
  lemma FirstCandidateRenders(re: Pcre, rules: ProtocolRules, protocol: string, destination: string,
                              direct: bool, name: string, fuel: nat, k: nat, ps: seq<Piece>)
    requires fuel > 0 && protocol in rules && k < |rules[protocol]|
    requires Candidate(re, rules[protocol][k], destination, name)
    requires forall j :: 0 <= j < k ==> !Candidate(re, rules[protocol][j], destination, name)
    requires rules[protocol][k].chain == "" && WellFormed(ps) && rules[protocol][k].result == Flatten(ps)
    requires re.ExecCode(rules[protocol][k].pathMatch, name) > 0
    ensures var r := rules[protocol][k];
            ApplyRules(re, rules, protocol, destination, direct, name, fuel)
              == Some(Expand(ps, re.exec(r.pathMatch, name).value, re.ExecCode(r.pathMatch, name)))
  {
    var r := rules[protocol][k];
    ApplyRulesFirstCandidate(re, rules, protocol, destination, direct, name, fuel, k);
    RenderFlatten(ps, re.exec(r.pathMatch, name).value, re.ExecCode(r.pathMatch, name));
  }

  /** When no rule of the protocol is a candidate the translation is "". */
  lemma ApplyRulesNoCandidate(re: Pcre, rules: ProtocolRules, protocol: string, destination: string,
                              direct: bool, name: string, fuel: nat)
    requires forall j :: 0 <= j < |RulesFor(rules, protocol)| ==> !Candidate(re, RulesFor(rules, protocol)[j], destination, name)
    ensures ApplyRules(re, rules, protocol, destination, direct, name, fuel) == if fuel == 0 then None else Some("")
  {
    if fuel > 0 && protocol in rules {
      assert RulesFor(rules, protocol) == rules[protocol];
      FirstRuleSkipsTo(re, rules, rules[protocol], destination, direct, name, fuel, |rules[protocol]|);
    }
  }

  /** No rule anywhere names a chain. */
  predicate ChainFree(rules: ProtocolRules)
  {
    forall p :: p in rules ==> forall j :: 0 <= j < |rules[p]| ==> rules[p][j].chain == ""
  }

  lemma {:induction false} FirstRuleChainFree(re: Pcre, rules: ProtocolRules, rs: seq<Rule>, destination: string,
                                              direct: bool, name: string, fuel: nat, fuel': nat)
    requires fuel > 0 && fuel' > 0
    requires forall j :: 0 <= j < |rs| ==> rs[j].chain == ""
    ensures FirstRule(re, rules, rs, destination, direct, name, fuel).Some?
    ensures FirstRule(re, rules, rs, destination, direct, name, fuel)
         == FirstRule(re, rules, rs, destination, direct, name, fuel')
    decreases |rs|
  {
    if rs != [] && !Candidate(re, rs[0], destination, name) {
      FirstRuleChainFree(re, rules, rs[1..], destination, direct, name, fuel, fuel');
    }
  }

  /** Without chains the depth budget plays no part: any positive budget gives the same translation, and never runs out. */
  lemma ApplyRulesChainFreeIgnoresFuel(re: Pcre, rules: ProtocolRules, protocol: string, destination: string,
                                       direct: bool, name: string, fuel: nat, fuel': nat)
    requires ChainFree(rules) && fuel > 0 && fuel' > 0
    ensures ApplyRules(re, rules, protocol, destination, direct, name, fuel).Some?
    ensures ApplyRules(re, rules, protocol, destination, direct, name, fuel)
         == ApplyRules(re, rules, protocol, destination, direct, name, fuel')
  {
    if protocol in rules {
      FirstRuleChainFree(re, rules, rules[protocol], destination, direct, name, fuel, fuel');
    }
  }

  /**
   * A protocol whose only rule matches every name and chains back into the
   * same protocol exhausts any budget in the inverse direction: the source
   * recurses on it without end.
   */
  lemma {:induction false} InverseSelfChainExhausts(re: Pcre, rules: ProtocolRules, protocol: string,
                                                    destination: string, name: string, fuel: nat)
    requires protocol in rules && |rules[protocol]| == 1
    requires protocol != "" && rules[protocol][0].chain == protocol
    requires forall s :: Candidate(re, rules[protocol][0], destination, s)
    ensures ApplyRules(re, rules, protocol, destination, false, name, fuel) == None
    decreases fuel
  {
    if fuel > 0 {
      var r := rules[protocol][0];
      assert Candidate(re, r, destination, name);
      InverseSelfChainExhausts(re, rules, protocol, destination, Rewrite(re, r, name), fuel - 1);
      assert FirstRule(re, rules, rules[protocol], destination, false, name, fuel)
          == Fire(re, rules, r, destination, false, name, fuel);
    }
  }

  /**
   * The same self-chain exhausts any budget in the direct direction too:
   * the chained lookup comes first, so the rule never gets to render.
   */
  lemma {:induction false} DirectSelfChainExhausts(re: Pcre, rules: ProtocolRules, protocol: string,
                                                   destination: string, name: string, fuel: nat)
    requires protocol in rules && |rules[protocol]| == 1
    requires protocol != "" && rules[protocol][0].chain == protocol
    requires Candidate(re, rules[protocol][0], destination, name)
    ensures ApplyRules(re, rules, protocol, destination, true, name, fuel) == None
    decreases fuel
  {
    if fuel > 0 {
      var r := rules[protocol][0];
      DirectSelfChainExhausts(re, rules, protocol, destination, name, fuel - 1);
      assert FirstRule(re, rules, rules[protocol], destination, true, name, fuel)
          == Fire(re, rules, r, destination, true, name, fuel);
    }
  }

  /**
   * `applyRules` as written: `rc` stays 0 because no `pcre_exec` result is
   * stored in it, so the `rc < 0` tests never skip a rule and `rc > 0` never
   * renders: the first rule of the protocol always fires and the name is only
   * passed through its chain. None again means the budget ran out.
   */
  function ApplyRulesAsWritten(re: Pcre, rules: ProtocolRules, protocol: string, destination: string,
                               direct: bool, name: string, fuel: nat): Option<string>
    decreases fuel
  {
    if fuel == 0 then None
    else if protocol !in rules || rules[protocol] == [] then Some("")
    else
      var r := rules[protocol][0];
      var before := if direct && r.chain != "" then ApplyRulesAsWritten(re, rules, r.chain, destination, direct, name, fuel - 1) else Some(name);
      match before
      case None => None
      case Some(b) =>
        if !direct && r.chain != "" then ApplyRulesAsWritten(re, rules, r.chain, destination, direct, b, fuel - 1) else Some(b)
  }

  /** As written, a protocol whose first rule has no chain returns the name unchanged, whether or not any pattern matches. */
  lemma ApplyRulesAsWrittenIgnoresPatterns(re: Pcre, rules: ProtocolRules, protocol: string, destination: string,
                                           direct: bool, name: string, fuel: nat)
    requires fuel > 0 && protocol in rules && rules[protocol] != [] && rules[protocol][0].chain == ""
    ensures ApplyRulesAsWritten(re, rules, protocol, destination, direct, name, fuel) == Some(name)
  {
  }
}

=== FILE: scenarios.dfy ===
/**
 * Worked translations over a small stand-in for PCRE, showing the rule
 * engine on concrete catalogs: the `/store` to `/physical` rewrite, first
 * match wins, fall-through to the next protocol when the destination does
 * not match, the two chaining directions, and what the source as written
 * does instead.
 */
module Scenarios {
  import opened Strings
  import opened TfcTypes
  import opened Substitution
  import opened RuleEngine
  import opened Catalog

  /**
   * The stand-in matcher: ".*" matches every subject with no group; any other
   * pattern matches the subjects that start with it and captures the rest as
   * group 1.
   */
  function PrefixExec(p: string, s: string): Option<seq<string>>
  {
    if p == ".*" then Some([s]) else if p <= s then Some([s, s[|p|..]]) else None
  }

  /** The stand-in library; the pattern "(" does not compile. */
  function PrefixPcre(): Pcre
  {
    Pcre(p => p != "(", (p, s) => PrefixExec(p, s))
  }

  /** A rule whose path pattern is a prefix renders `lit$1` into `lit` followed by the rest of the name. */
  lemma PrefixRewrite(prefix: string, dest: string, lit: string, rest: string, chain: string)
    requires prefix != ".*" && '$' !in lit
    ensures Rewrite(PrefixPcre(), Rule(prefix, dest, lit + "$1", chain), prefix + rest) == lit + rest
  {
    var re := PrefixPcre();
    var name := prefix + rest;
    assert name[|prefix|..] == rest;
    var caps := [name, rest];
    assert re.exec(prefix, name) == Some(caps);
    assert re.ExecCode(prefix, name) == 2;
    var ps := [Lit(lit), Hole(1)];
    assert WellFormed(ps);
    assert Token(1) == "$1";
    assert Flatten(ps[1..]) == "$1" + Flatten([]);
    assert Flatten(ps) == lit + "$1";
    assert Expand(ps[1..], caps, 2) == rest + Expand([], caps, 2);
    assert Expand(ps, caps, 2) == lit + rest;
    RenderFlatten(ps, caps, 2);
  }

  /** The rule `^<prefix>(.*)$` to `<lit>$1`, with destination pattern `dest` and chain `chain`. */
  function PrefixRule(prefix: string, dest: string, lit: string, chain: string): Rule
  {
    Rule(prefix, dest, lit + "$1", chain)
  }

  /**
   * A single prefix rule under protocol "direct" turns `<prefix><rest>` into
   * `<lit><rest>`: with prefix `/store/` and `lit` `/physical/`, the name
   * `/store/run1/file.root` becomes `/physical/run1/file.root`.
   */
  lemma StoreToPhysical(prefix: string, lit: string, rest: string, fuel: nat)
    requires prefix != ".*" && '$' !in lit && fuel >= 1
    ensures ApplyRules(PrefixPcre(), map["direct" := [PrefixRule(prefix, ".*", lit, "")]], "direct", "any", true,
                       prefix + rest, fuel) == Some(lit + rest)
  {
    var re, rules := PrefixPcre(), map["direct" := [PrefixRule(prefix, ".*", lit, "")]];
    assert Candidate(re, PrefixRule(prefix, ".*", lit, ""), "any", prefix + rest);
    ApplyRulesFirstCandidate(re, rules, "direct", "any", true, prefix + rest, fuel, 0);
    PrefixRewrite(prefix, ".*", lit, rest, "");
  }

  /** Of two rules that both match, only the first one in document order is applied. */
  lemma FirstRuleWins(prefix: string, a: string, b: string, rest: string)
    requires prefix != ".*" && '$' !in a
    ensures ApplyRules(PrefixPcre(), map["direct" := [PrefixRule(prefix, ".*", a, ""), PrefixRule(prefix, ".*", b, "")]],
                       "direct", "any", true, prefix + rest, 1) == Some(a + rest)
  {
    var re, rules := PrefixPcre(), map["direct" := [PrefixRule(prefix, ".*", a, ""), PrefixRule(prefix, ".*", b, "")]];
    assert Candidate(re, PrefixRule(prefix, ".*", a, ""), "any", prefix + rest);
    ApplyRulesFirstCandidate(re, rules, "direct", "any", true, prefix + rest, 1, 0);
    PrefixRewrite(prefix, ".*", a, rest, "");
  }

  /** Rules for site-A under "srm" and a catch-all "direct" rule. */
  function SiteRules(prefix: string, a: string, phys: string): ProtocolRules
  {
    map["srm" := [PrefixRule(prefix, "site-A", a, "")], "direct" := [PrefixRule(prefix, ".*", phys, "")]]
  }

  /** For destination site-B no "srm" rule matches, so the catalog falls through to "direct". */
  lemma DestinationFallsThrough(prefix: string, a: string, phys: string, rest: string)
    requires prefix != ".*" && phys != [] && '$' !in phys
    ensures FirstTranslated(PrefixPcre(), SiteRules(prefix, a, phys), ["srm", "direct"], "site-B", true, prefix + rest, MaxChainDepth) == 1
    ensures ApplyRules(PrefixPcre(), SiteRules(prefix, a, phys), "direct", "site-B", true, prefix + rest, MaxChainDepth) == Some(phys + rest)
  {
    var re, rules := PrefixPcre(), SiteRules(prefix, a, phys);
    var name := prefix + rest;
    assert ApplyRules(re, rules, "srm", "site-B", true, name, MaxChainDepth) == Some("") by {
      assert "site-A"[5] != "site-B"[5];
      assert RulesFor(rules, "srm") == [PrefixRule(prefix, "site-A", a, "")];
      ApplyRulesNoCandidate(re, rules, "srm", "site-B", true, name, MaxChainDepth);
    }
    assert ApplyRules(re, rules, "direct", "site-B", true, name, MaxChainDepth) == Some(phys + rest) by {
      assert Candidate(re, PrefixRule(prefix, ".*", phys, ""), "site-B", name);
      ApplyRulesFirstCandidate(re, rules, "direct", "site-B", true, name, MaxChainDepth, 0);
      PrefixRewrite(prefix, ".*", phys, rest, "");
    }
    var protocols := ["srm", "direct"];
    assert protocols[1..] == ["direct"];
    assert FirstTranslated(re, rules, protocols[1..], "site-B", true, name, MaxChainDepth) == 0;
  }

  /**
   * An "srm" rule chained into "direct": "direct" maps `<prefix>N` to
   * `<prefix><mid>N` and "srm" maps `<prefix>N` to `<wrap>N`; for instance
   * `/store/N`, `/store/phys/N` and `srm://wrap/N`.
   */
  function ChainRules(prefix: string, mid: string, wrap: string): ProtocolRules
  {
    map["direct" := [PrefixRule(prefix, ".*", prefix + mid, "")], "srm" := [PrefixRule(prefix, ".*", wrap, "direct")]]
  }

  /** The one "srm" rule of `ChainRules` is a candidate for every `<prefix>N`, so it decides the translation. */
  lemma SrmRuleFires(prefix: string, mid: string, wrap: string, n: string, direct: bool, fuel: nat)
    requires prefix != ".*" && fuel >= 1
    ensures var re, rules, srm := PrefixPcre(), ChainRules(prefix, mid, wrap), PrefixRule(prefix, ".*", wrap, "direct");
            var out := ApplyRules(re, rules, "srm", "any", direct, prefix + n, fuel);
            var inner := ApplyRules(re, rules, "direct", "any", true, prefix + n, fuel - 1);
            && (direct ==> out == if inner.None? then None else Some(Rewrite(re, srm, inner.value)))
            && (!direct ==> out == ApplyRules(re, rules, "direct", "any", false, Rewrite(re, srm, prefix + n), fuel - 1))
  {
    var re, rules, srm := PrefixPcre(), ChainRules(prefix, mid, wrap), PrefixRule(prefix, ".*", wrap, "direct");
    assert "srm" in rules && rules["srm"] == [srm];
    assert Candidate(re, srm, "any", prefix + n);
    ApplyRulesFirstCandidate(re, rules, "srm", "any", direct, prefix + n, fuel, 0);
  }

  /** The chained "direct" step of `ChainRules` maps `<prefix>N` to `<prefix><mid>N`. */
  lemma ChainedStoreRule(prefix: string, mid: string, wrap: string, n: string, fuel: nat)
    requires prefix != ".*" && '$' !in prefix + mid && fuel >= 1
    ensures ApplyRules(PrefixPcre(), ChainRules(prefix, mid, wrap), "direct", "any", true, prefix + n, fuel) == Some(prefix + mid + n)
  {
    var re, rules := PrefixPcre(), ChainRules(prefix, mid, wrap);
    assert "direct" in rules && rules["direct"] == [PrefixRule(prefix, ".*", prefix + mid, "")];
    assert Candidate(re, PrefixRule(prefix, ".*", prefix + mid, ""), "any", prefix + n);
    ApplyRulesFirstCandidate(re, rules, "direct", "any", true, prefix + n, fuel, 0);
    PrefixRewrite(prefix, ".*", prefix + mid, n, "");
  }

  /**
   * Direct translation runs the chained protocol on the input first:
   * `<prefix>N` becomes `<prefix><mid>N` and then `<wrap><mid>N`, e.g.
   * `/store/N`, then `/store/phys/N`, then `srm://wrap/phys/N`.
   */
  lemma ChainBeforeRewriteWhenDirect(prefix: string, mid: string, wrap: string, n: string, fuel: nat)
    requires prefix != ".*" && '$' !in prefix + mid && '$' !in wrap && fuel >= 2
    ensures ApplyRules(PrefixPcre(), ChainRules(prefix, mid, wrap), "srm", "any", true, prefix + n, fuel) == Some(wrap + mid + n)
  {
    var re, srm := PrefixPcre(), PrefixRule(prefix, ".*", wrap, "direct");
    SrmRuleFires(prefix, mid, wrap, n, true, fuel);
    ChainedStoreRule(prefix, mid, wrap, n, fuel - 1);
    AppendAssoc(prefix, mid, n);
    PrefixRewrite(prefix, ".*", wrap, mid + n, "direct");
    assert Rewrite(re, srm, prefix + mid + n) == wrap + (mid + n);
    AppendAssoc(wrap, mid, n);
  }

  /**
   * The budget counts nested lookups, not cycles: the finite chain "srm" to
   * "direct", which the source follows to `<wrap><mid>N`, gives None with a
   * budget of one lookup and the translation with two.
   */
  lemma ChainDeeperThanBudget(prefix: string, mid: string, wrap: string, n: string)
    requires prefix != ".*" && '$' !in prefix + mid && '$' !in wrap
    ensures ApplyRules(PrefixPcre(), ChainRules(prefix, mid, wrap), "srm", "any", true, prefix + n, 1) == None
    ensures ApplyRules(PrefixPcre(), ChainRules(prefix, mid, wrap), "srm", "any", true, prefix + n, 2) == Some(wrap + mid + n)
  {
    SrmRuleFires(prefix, mid, wrap, n, true, 1);
    ChainBeforeRewriteWhenDirect(prefix, mid, wrap, n, 2);
  }

  /**
   * Inverse translation runs the chained protocol on the output, where the
   * "direct" rule no longer matches when `wrap` does not start like
   * `prefix`, so the same rules give no translation: the two directions are
   * not interchangeable.
   */
  lemma ChainAfterRewriteWhenInverse(prefix: string, mid: string, wrap: string, n: string, fuel: nat)
    requires prefix != [] && prefix != ".*" && wrap != [] && wrap[0] != prefix[0]
    requires '$' !in wrap && fuel >= 2
    ensures ApplyRules(PrefixPcre(), ChainRules(prefix, mid, wrap), "srm", "any", false, prefix + n, fuel) == Some("")
  {
    var re, rules := PrefixPcre(), ChainRules(prefix, mid, wrap);
    var out := wrap + n;
    SrmRuleFires(prefix, mid, wrap, n, false, fuel);
    PrefixRewrite(prefix, ".*", wrap, n, "direct");
    assert ApplyRules(re, rules, "direct", "any", false, out, fuel - 1) == Some("") by {
      assert out[0] != prefix[0];
      assert RulesFor(rules, "direct") == [PrefixRule(prefix, ".*", prefix + mid, "")];
      ApplyRulesNoCandidate(re, rules, "direct", "any", false, out, fuel - 1);
    }
  }

  /**
   * A catalog whose direct rules map `<a>N` to `<b>N` and whose inverse rules
   * map `<b>N` back to `<a>N`, both under one protocol: the facade turns a
   * logical name into a physical one and that physical name back into the
   * same logical name, e.g. `/store/N` to `/physical/N` and back.
   */
  lemma RoundTrip(a: string, b: string, rest: string)
    requires a != [] && b != [] && a != ".*" && b != ".*"
    requires '$' !in a && '$' !in b
    ensures var re, dir, inv := PrefixPcre(), map["direct" := [PrefixRule(a, ".*", b, "")]], map["direct" := [PrefixRule(b, ".*", a, "")]];
            var pfn := Translate(re, dir, "direct", "any", true, a + rest, MaxChainDepth);
            && FirstTranslated(re, dir, ["direct"], "any", true, a + rest, MaxChainDepth) == 0
            && pfn == b + rest
            && FirstTranslated(re, inv, ["direct"], "any", false, pfn, MaxChainDepth) == 0
            && Translate(re, inv, "direct", "any", false, pfn, MaxChainDepth) == a + rest
  {
    var re, dir, inv := PrefixPcre(), map["direct" := [PrefixRule(a, ".*", b, "")]], map["direct" := [PrefixRule(b, ".*", a, "")]];
    assert Candidate(re, PrefixRule(a, ".*", b, ""), "any", a + rest);
    ApplyRulesFirstCandidate(re, dir, "direct", "any", true, a + rest, MaxChainDepth, 0);
    PrefixRewrite(a, ".*", b, rest, "");
    assert Candidate(re, PrefixRule(b, ".*", a, ""), "any", b + rest);
    ApplyRulesFirstCandidate(re, inv, "direct", "any", false, b + rest, MaxChainDepth, 0);
    PrefixRewrite(b, ".*", a, rest, "");
  }

  /**
   * As written, `applyRules` lets a rule fire on a name its pattern does not
   * match, and never renders the template: `/other/x` comes back as it is
   * and `/store/x` is not rewritten. The intended engine gives "" and
   * `/physical/x`.
   */
  lemma ApplyRulesAsWrittenCounterexample()
    ensures ApplyRulesAsWritten(PrefixPcre(), map["direct" := [PrefixRule("/store/", ".*", "/physical/", "")]], "direct", "any", true, "/other/x", 1) == Some("/other/x")
    ensures ApplyRules(PrefixPcre(), map["direct" := [PrefixRule("/store/", ".*", "/physical/", "")]], "direct", "any", true, "/other/x", 1) == Some("")
    ensures ApplyRulesAsWritten(PrefixPcre(), map["direct" := [PrefixRule("/store/", ".*", "/physical/", "")]], "direct", "any", true, "/store/x", 1) == Some("/store/x")
    ensures ApplyRules(PrefixPcre(), map["direct" := [PrefixRule("/store/", ".*", "/physical/", "")]], "direct", "any", true, "/store/x", 1) == Some("/physical/x")
  {
    var re, rules := PrefixPcre(), map["direct" := [PrefixRule("/store/", ".*", "/physical/", "")]];
    var other: string := "/other/x";
    assert other[1] != "/store/"[1];
    assert RulesFor(rules, "direct") == [PrefixRule("/store/", ".*", "/physical/", "")];
    ApplyRulesNoCandidate(re, rules, "direct", "any", true, other, 1);
    StoreToPhysical("/store/", "/physical/", "x", 1);
    assert "/store/" + "x" == "/store/x" && "/physical/" + "x" == "/physical/x";
  }

  /**
   * As written, `lfn2pfn` with protocols "srm" then "direct" hands "" to
   * "direct" once "srm" has no rules, and finds nothing; the intended facade
   * translates `/store/x` with "direct".
   */
  lemma Lfn2PfnAsWrittenCounterexample()
    ensures Lfn2PfnAsWritten(PrefixPcre(), map["direct" := [PrefixRule("/store/", ".*", "/physical/", "")]], ["srm", "direct"], "any", "/store/x", MaxChainDepth) == None
    ensures FirstTranslated(PrefixPcre(), map["direct" := [PrefixRule("/store/", ".*", "/physical/", "")]], ["srm", "direct"], "any", true, "/store/x", MaxChainDepth) == 1
  {
    Lfn2PfnAsWrittenLosesName("/store/", "/physical/", "x");
    assert "/store/" + "x" == "/store/x";
  }

  /** `Lfn2PfnAsWrittenCounterexample` for every prefix rule and name. */
  lemma Lfn2PfnAsWrittenLosesName(prefix: string, lit: string, rest: string)
    requires prefix != [] && prefix != ".*" && lit != [] && '$' !in lit
    ensures Lfn2PfnAsWritten(PrefixPcre(), map["direct" := [PrefixRule(prefix, ".*", lit, "")]], ["srm", "direct"], "any", prefix + rest, MaxChainDepth) == None
    ensures FirstTranslated(PrefixPcre(), map["direct" := [PrefixRule(prefix, ".*", lit, "")]], ["srm", "direct"], "any", true, prefix + rest, MaxChainDepth) == 1
  {
    var re, rules := PrefixPcre(), map["direct" := [PrefixRule(prefix, ".*", lit, "")]];
    var protocols := ["srm", "direct"];
    var name := prefix + rest;
    assert protocols[1..] == ["direct"] && protocols[1..][1..] == [];
    assert Lfn2PfnAsWritten(re, rules, protocols, "any", name, MaxChainDepth) == None by {
      ApplyRulesUnknownProtocol(re, rules, "srm", "any", false, name, MaxChainDepth);
      assert !(prefix <= "");
      assert RulesFor(rules, "direct") == [PrefixRule(prefix, ".*", lit, "")];
      ApplyRulesNoCandidate(re, rules, "direct", "any", false, "", MaxChainDepth);
      Lfn2PfnAsWrittenForgetsInput(re, rules, protocols, "any", name, MaxChainDepth);
      Lfn2PfnAsWrittenForgetsInput(re, rules, protocols[1..], "any", "", MaxChainDepth);
    }
    assert FirstTranslated(re, rules, protocols, "any", true, name, MaxChainDepth) == 1 by {
      ApplyRulesUnknownProtocol(re, rules, "srm", "any", true, name, MaxChainDepth);
      StoreToPhysical(prefix, lit, rest, MaxChainDepth);
      assert FirstTranslated(re, rules, protocols[1..], "any", true, name, MaxChainDepth) == 0;
    }
  }
}

=== FILE: strings.dfy ===
/**
 * The string helpers of XrdCmsTfc.cc: `split` (a `std::getline` loop over a
 * string stream) and the `find` queries that `parse` makes on the contact
 * string.
 */
module Strings {

  /** Concatenation is associative. */
  lemma AppendAssoc<T>(a: seq<T>, b: seq<T>, c: seq<T>)
    ensures (a + b) + c == a + (b + c)
  {
  }

  /** Index of the first `c` in `s`, or `|s|` when `s` has none (`std::string::find`). */
  function IndexOf(s: string, c: char): (k: nat)
    ensures k <= |s|
    ensures k < |s| ==> s[k] == c
    ensures forall j :: 0 <= j < k ==> s[j] != c
  {
    if s == [] then 0 else if s[0] == c then 0 else 1 + IndexOf(s[1..], c)
  }

  /** `find` of a character that occurs succeeds. */
  lemma IndexOfPresent(s: string, c: char)
    requires c in s
    ensures IndexOf(s, c) < |s|
  {
  }

  /** Whether `t` occurs in `s` as a contiguous substring (`s.find(t) != npos`). */
  predicate Contains(s: string, t: string)
    decreases |s|
  {
    t <= s || (s != [] && Contains(s[1..], t))
  }

  /** Offset of the first occurrence of `t` in `s`; `|s|` when there is none. */
  function Find(s: string, t: string): (k: nat)
    ensures k <= |s|
    ensures forall j :: 0 <= j < k ==> !(t <= s[j..])
    ensures !Contains(s, t) ==> k == |s|
    decreases |s|
  {
    if t <= s then 0
    else if s == [] then 0
    else
      assert forall j :: 1 <= j <= |s| ==> s[1..][j - 1..] == s[j..];
      1 + Find(s[1..], t)
  }

  lemma {:induction false} FindLocates(s: string, t: string)
    requires Contains(s, t)
    ensures Find(s, t) + |t| <= |s| && t <= s[Find(s, t)..]
    decreases |s|
  {
    if !(t <= s) {
      FindLocates(s[1..], t);
      assert s[1..][Find(s[1..], t)..] == s[Find(s, t)..];
    }
  }

  /** After text that lacks the first character of `t`, an occurrence of `t` is the first one. */
  lemma {:induction false} FindAfterLiteral(lit: string, s: string, t: string)
    requires t != [] && t[0] !in lit && t <= s
    ensures Contains(lit + s, t) && Find(lit + s, t) == |lit|
    decreases |lit|
  {
    if lit == [] {
      assert lit + s == s;
    } else {
      var u := lit + s;
      assert u[1..] == lit[1..] + s;
      assert t[0] != u[0];
      assert forall c :: c in lit[1..] ==> c in lit;
      FindAfterLiteral(lit[1..], s, t);
    }
  }

  /** A string that holds `t` holds every character of `t`. */
  lemma {:induction false} ContainsChar(s: string, t: string, c: char)
    requires Contains(s, t) && c in t
    ensures c in s
    decreases |s|
  {
    if t <= s {
      assert forall j :: 0 <= j < |t| ==> s[j] == t[j];
    } else {
      ContainsChar(s[1..], t, c);
      assert forall j :: 0 <= j < |s[1..]| ==> s[1..][j] == s[j + 1];
    }
  }

  /** A character that never occurs in `s` rules out every substring starting with it. */
  lemma {:induction false} NotContainsWithoutFirstChar(s: string, t: string)
    requires t != [] && t[0] !in s
    ensures !Contains(s, t)
    decreases |s|
  {
    if s != [] {
      assert s[0] in s;
      assert forall c :: c in s[1..] ==> c in s;
      NotContainsWithoutFirstChar(s[1..], t);
    }
  }

  /**
   * The pieces `split(s, d)` returns. `std::getline` yields every piece that
   * ends at a delimiter, and a final piece only when it is not empty: so ""
   * gives [], "a,b" gives ["a", "b"], "a," gives ["a"], "," gives [""] and
   * "a,,b" gives ["a", "", "b"].
   */
  function Pieces(s: string, d: char): (ps: seq<string>)
    ensures ps == [] <==> s == []
    decreases |s|
  {
    if s == [] then []
    else
      var k := IndexOf(s, d);
      if k == |s| then [s] else [s[..k]] + Pieces(s[k + 1..], d)
  }

  /** The pieces put back together with `d` between neighbours. */
  function Join(ps: seq<string>, d: char): string
  {
    if ps == [] then ""
    else if |ps| == 1 then ps[0]
    else ps[0] + [d] + Join(ps[1..], d)
  }

  /** No piece returned by `split` holds the delimiter. */
  lemma {:induction false} PiecesExcludeDelimiter(s: string, d: char)
    ensures forall i :: 0 <= i < |Pieces(s, d)| ==> d !in Pieces(s, d)[i]
    decreases |s|
  {
    if s != [] {
      var k := IndexOf(s, d);
      if k < |s| {
        var rest := Pieces(s[k + 1..], d);
        PiecesExcludeDelimiter(s[k + 1..], d);
        PiecesHead(s, d);
        ConsExcludes(s[..k], rest, d);
      }
    }
  }

  /** A head without `d` in front of pieces without `d` gives pieces without `d`. */
  lemma ConsExcludes(head: string, ps: seq<string>, d: char)
    requires d !in head
    requires forall i :: 0 <= i < |ps| ==> d !in ps[i]
    ensures forall i :: 0 <= i < |[head] + ps| ==> d !in ([head] + ps)[i]
  {
    forall i | 0 <= i < |[head] + ps| ensures d !in ([head] + ps)[i] {
      if i > 0 {
        assert ([head] + ps)[i] == ps[i - 1];
      }
    }
  }

  /** The first delimiter of `s` closes the first piece. */
  lemma PiecesHead(s: string, d: char)
    requires IndexOf(s, d) < |s|
    ensures Pieces(s, d) == [s[..IndexOf(s, d)]] + Pieces(s[IndexOf(s, d) + 1..], d)
  {
  }

  /** Joining a non-empty tail puts one delimiter after the head. */
  lemma JoinCons(p: string, ps: seq<string>, d: char)
    requires ps != []
    ensures Join([p] + ps, d) == p + [d] + Join(ps, d)
  {
    assert ([p] + ps)[1..] == ps;
  }

  /**
   * Joining the pieces with the delimiter gives back the input, except for a
   * trailing delimiter, which `split` drops.
   */
  lemma {:induction false} JoinPieces(s: string, d: char)
    requires s != []
    ensures s[|s| - 1] != d ==> Join(Pieces(s, d), d) == s
    ensures s[|s| - 1] == d ==> Join(Pieces(s, d), d) + [d] == s
    decreases |s|
  {
    var k := IndexOf(s, d);
    if k < |s| {
      var head, rest := s[..k], s[k + 1..];
      PiecesHead(s, d);
      SplitAt(s, k);
      if rest == [] {
        assert Join(Pieces(s, d), d) == head;
      } else {
        JoinPieces(rest, d);
        JoinCons(head, Pieces(rest, d), d);
        RejoinTail(head, rest, Join(Pieces(rest, d), d), d);
      }
    } else {
      assert Pieces(s, d) == [s];
    }
  }

  /** `s` is the part before index `k`, the character at `k` and the part after. */
  lemma SplitAt(s: string, k: nat)
    requires k < |s|
    ensures s == s[..k] + [s[k]] + s[k + 1..]
  {
  }

  /** Putting a head and a delimiter in front of a rejoined tail rejoins the whole. */
  lemma RejoinTail(head: string, rest: string, j: string, d: char)
    requires rest != []
    requires rest[|rest| - 1] != d ==> j == rest
    requires rest[|rest| - 1] == d ==> j + [d] == rest
    ensures var s := head + [d] + rest;
            && (s[|s| - 1] != d ==> head + [d] + j == s)
            && (s[|s| - 1] == d ==> head + [d] + j + [d] == s)
  {
    var s := head + [d] + rest;
    assert s[|s| - 1] == rest[|rest| - 1];
    if rest[|rest| - 1] == d {
      assert head + [d] + j + [d] == head + [d] + (j + [d]);
    }
  }

  /** A delimiter right after a piece without delimiters closes that piece. */
  lemma PiecesAtDelimiter(item: string, rest: string, d: char)
    requires d !in item && rest != [] && rest[0] == d
    ensures Pieces(item + rest, d) == [item] + Pieces(rest[1..], d)
  {
    var s := item + rest;
    var k := IndexOf(s, d);
    assert forall j :: 0 <= j < |item| ==> s[j] == item[j];
    assert s[|item|] == d;
    assert k == |item|;
    assert s[..k] == item;
    assert s[k + 1..] == rest[1..];
  }

  /** A last piece without delimiters is returned as it is when it is not empty. */
  lemma PiecesOfPlainText(item: string, d: char)
    requires d !in item
    ensures Pieces(item, d) == if item == [] then [] else [item]
  {
    var k := IndexOf(item, d);
    assert forall j :: 0 <= j < |item| ==> item[j] in item;
  }

  /**
   * `split`: reads `s` character by character, closing a piece at each
   * delimiter and keeping the last piece only when it is not empty.
   */
  method Split(s: string, d: char) returns (elems: seq<string>)
    ensures elems == Pieces(s, d)
    ensures forall i :: 0 <= i < |elems| ==> d !in elems[i]
  {
    elems := [];
    var item := "";
    var i := 0;
    assert item + s[i..] == s;
    while i < |s|
      invariant 0 <= i <= |s|
      invariant d !in item
      invariant elems + Pieces(item + s[i..], d) == Pieces(s, d)
    {
      if s[i] == d {
        SplitCloses(item, s, i, d);
        elems := elems + [item];
        item := "";
      } else {
        SplitExtends(item, s, i);
        item := item + [s[i]];
      }
      i := i + 1;
    }
    assert item + s[i..] == item;
    PiecesOfPlainText(item, d);
    if item != "" {
      elems := elems + [item];
    }
    PiecesExcludeDelimiter(s, d);
  }

  /** A delimiter at `i` closes the current piece and starts an empty one. */
  lemma SplitCloses(item: string, s: string, i: nat, d: char)
    requires i < |s| && s[i] == d && d !in item
    ensures forall elems: seq<string> {:trigger elems + Pieces(item + s[i..], d)} ::
              elems + Pieces(item + s[i..], d) == (elems + [item]) + Pieces("" + s[i + 1..], d)
  {
    PiecesAtDelimiter(item, s[i..], d);
    assert s[i..][1..] == s[i + 1..];
    assert "" + s[i + 1..] == s[i + 1..];
  }

  /** Any other character at `i` moves from the input to the current piece. */
  lemma SplitExtends(item: string, s: string, i: nat)
    requires i < |s|
    ensures item + s[i..] == (item + [s[i]]) + s[i + 1..]
  {
  }
}

=== FILE: substitution.dfy ===
/**
 * Template substitution of XrdCmsTfc.cc: `replace` and `replaceWithRegexp`.
 * A result template is literal text with placeholders `$1` ... `$9`; capture
 * `i` of the path match replaces every `$i`, for i from 1 up to the pcre_exec
 * return code, in ascending order.
 */
module Substitution {
  import opened Strings
  import opened TfcTypes

  /** The decimal digit for `i`, as `sprintf("%i")` writes it. */
  function Digit(i: nat): (c: char)
    requires i <= 9
    ensures '0' <= c <= '9' && c as int - '0' as int == i
  {
    (('0' as int) + i) as char
  }

  /** The placeholder `$i`; `replaceWithRegexp` compiles the pattern `[$]i`, which matches exactly this text. */
  function Token(i: nat): (t: string)
    requires i <= 9
    ensures |t| == 2 && t[0] == '$' && t[1] != '$'
    ensures t[1] as int - '0' as int == i
  {
    ['$', Digit(i)]
  }

  /**
   * The substitution `replace` is meant to perform: every occurrence of `tok`
   * in `s`, scanning left to right without overlap, becomes `v`, and all
   * other text is kept, including the text after the last occurrence. The
   * inserted `v` is not scanned again by this call. The model replaces ALL
   * occurrences, not only the first.
   */
  function ReplaceAll(s: string, tok: string, v: string): string
    requires tok != []
    decreases |s|
  {
    if |s| < |tok| then s
    else if tok <= s then v + ReplaceAll(s[|tok|..], tok, v)
    else [s[0]] + ReplaceAll(s[1..], tok, v)
  }

  /** Text that holds no occurrence of the token is left as it is. */
  lemma {:induction false} ReplaceAllAbsent(s: string, tok: string, v: string)
    requires tok != [] && !Contains(s, tok)
    ensures ReplaceAll(s, tok, v) == s
    decreases |s|
  {
    if |s| >= |tok| {
      ReplaceAllAbsent(s[1..], tok, v);
      assert s == [s[0]] + s[1..];
    }
  }

  /** Literal text before an occurrence is copied through unchanged. */
  lemma {:induction false} ReplaceAllLiteral(lit: string, s: string, tok: string, v: string)
    requires tok != [] && tok[0] !in lit
    ensures ReplaceAll(lit + s, tok, v) == lit + ReplaceAll(s, tok, v)
    decreases |lit|
  {
    if lit != [] {
      var t := lit + s;
      assert t[0] == lit[0] && t[1..] == lit[1..] + s;
      assert forall c :: c in lit[1..] ==> c in lit;
      ReplaceAllLiteral(lit[1..], s, tok, v);
      if |t| >= |tok| {
        assert !(tok <= t) by { assert tok[0] != t[0]; }
        calc {
          ReplaceAll(t, tok, v);
          [t[0]] + ReplaceAll(t[1..], tok, v);
          [lit[0]] + (lit[1..] + ReplaceAll(s, tok, v));
          { AppendAssoc([lit[0]], lit[1..], ReplaceAll(s, tok, v)); assert [lit[0]] + lit[1..] == lit; }
          lit + ReplaceAll(s, tok, v);
        }
      } else {
        assert ReplaceAll(s, tok, v) == s;
      }
    } else {
      assert lit + s == s;
    }
  }

  /** A placeholder for another index is copied through unchanged. */
  lemma ReplaceAllOtherToken(i: nat, j: nat, s: string, v: string)
    requires i <= 9 && j <= 9 && i != j
    ensures ReplaceAll(Token(j) + s, Token(i), v) == Token(j) + ReplaceAll(s, Token(i), v)
  {
    var t := Token(j) + s;
    assert t[1..] == [Digit(j)] + s;
    assert !(Token(i) <= t);
    ReplaceAllLiteral([Digit(j)], s, Token(i), v);
    assert Token(j) + ReplaceAll(s, Token(i), v) == [t[0]] + ([Digit(j)] + ReplaceAll(s, Token(i), v));
  }

  /** The placeholder itself becomes the value. */
  lemma ReplaceAllToken(i: nat, s: string, v: string)
    requires i <= 9
    ensures ReplaceAll(Token(i) + s, Token(i), v) == v + ReplaceAll(s, Token(i), v)
  {
    assert (Token(i) + s)[2..] == s;
  }

  /**
   * What the loop of `replaceWithRegexp` has built after indices 1 .. k-1:
   * the template with `$1`, then `$2`, ... replaced by the captures. Later
   * indices scan the text earlier captures inserted.
   */
  function Substitute(template: string, caps: seq<string>, k: nat): string
    requires k <= |caps| && k <= MaxPairs
    decreases k
  {
    if k <= 1 then template
    else ReplaceAll(Substitute(template, caps, k - 1), Token(k - 1), caps[k - 1])
  }

  /**
   * `replaceWithRegexp`: loops over the capture indices 1 .. rc-1 in
   * ascending order, replacing `$i` in the result by capture `i`.
   */
  method ReplaceWithRegexp(caps: seq<string>, rc: nat, outputFormat: string) returns (result: string)
    requires rc <= |caps| && rc <= MaxPairs
    ensures result == Substitute(outputFormat, caps, rc)
  {
    result := outputFormat;
    var i := 1;
    while i < rc
      invariant 1 <= i && (rc >= 1 ==> i <= rc)
      invariant rc >= 1 ==> result == Substitute(outputFormat, caps, i)
      invariant rc == 0 ==> result == outputFormat
    {
      result := ReplaceAll(result, Token(i), caps[i]);
      i := i + 1;
    }
  }

  /** A template with no `$` in it is returned as it is, whatever the captures. */
  lemma {:induction false} SubstitutePlainTemplate(template: string, caps: seq<string>, k: nat)
    requires k <= |caps| && k <= MaxPairs
    requires '$' !in template
    ensures Substitute(template, caps, k) == template
    decreases k
  {
    if k > 1 {
      SubstitutePlainTemplate(template, caps, k - 1);
      NotContainsWithoutFirstChar(template, Token(k - 1));
      ReplaceAllAbsent(template, Token(k - 1), caps[k - 1]);
    }
  }

  // A reference reading of templates: a template as literal pieces and placeholders.

  datatype Piece = Lit(text: string) | Hole(index: nat)

  /**
   * Literal pieces hold no `$` and placeholders are single digits. A
   * template with a `$` that starts no placeholder (`a$b`, a trailing `$`)
   * therefore has no pieces, and `SubstituteExpands` says nothing about it.
   */
  predicate WellFormed(ps: seq<Piece>)
  {
    forall k :: 0 <= k < |ps| ==>
      match ps[k]
      case Lit(text) => '$' !in text
      case Hole(index) => index <= 9
  }

  /** The template text the pieces spell. */
  function Flatten(ps: seq<Piece>): string
    requires WellFormed(ps)
  {
    if ps == [] then ""
    else
      var head := match ps[0] case Lit(text) => text case Hole(index) => Token(index);
      head + Flatten(ps[1..])
  }

  /**
   * The intended rendering: each placeholder `$i` with 1 <= i < rc becomes
   * capture `i`; any other placeholder stays as literal text, as do all
   * literal pieces.
   */
  function Expand(ps: seq<Piece>, caps: seq<string>, rc: nat): string
    requires WellFormed(ps) && rc <= |caps|
  {
    if ps == [] then "" else Filled(ps[0], caps, rc) + Expand(ps[1..], caps, rc)
  }

  /** The intended rendering of one piece. */
  function Filled(p: Piece, caps: seq<string>, rc: nat): string
    requires rc <= |caps| && (p.Hole? ==> p.index <= 9)
  {
    match p
    case Lit(text) => text
    case Hole(index) => if 1 <= index < rc then caps[index] else Token(index)
  }

  /** One more round of the loop, on the text rendered for one piece followed by `rest`. */
  lemma ExpandStepHead(p: Piece, rest: string, caps: seq<string>, k: nat)
    requires 2 <= k <= |caps| && k <= MaxPairs
    requires forall j :: 1 <= j < k ==> '$' !in caps[j]
    requires match p case Lit(text) => '$' !in text case Hole(index) => index <= 9
    ensures ReplaceAll(Filled(p, caps, k - 1) + rest, Token(k - 1), caps[k - 1])
         == Filled(p, caps, k) + ReplaceAll(rest, Token(k - 1), caps[k - 1])
  {
    var tok, v := Token(k - 1), caps[k - 1];
    match p
    case Lit(text) =>
      ReplaceAllLiteral(text, rest, tok, v);
    case Hole(index) =>
      if index == k - 1 {
        ReplaceAllToken(index, rest, v);
      } else if 1 <= index < k - 1 {
        ReplaceAllLiteral(caps[index], rest, tok, v);
      } else {
        ReplaceAllOtherToken(k - 1, index, rest, v);
      }
  }

  /** One more round of the loop fills the placeholder for index k-1. */
  lemma {:induction false} ExpandStep(ps: seq<Piece>, caps: seq<string>, k: nat)
    requires WellFormed(ps) && 2 <= k <= |caps| && k <= MaxPairs
    requires forall j :: 1 <= j < k ==> '$' !in caps[j]
    ensures ReplaceAll(Expand(ps, caps, k - 1), Token(k - 1), caps[k - 1]) == Expand(ps, caps, k)
    decreases |ps|
  {
    if ps == [] {
    } else {
      var tail := ps[1..];
      assert WellFormed(tail) by {
        forall m | 0 <= m < |tail| ensures match tail[m] case Lit(text) => '$' !in text case Hole(index) => index <= 9 {
          assert tail[m] == ps[m + 1];
        }
      }
      ExpandStep(tail, caps, k);
      assert match ps[0] case Lit(text) => '$' !in text case Hole(index) => index <= 9;
      ExpandStepHead(ps[0], Expand(tail, caps, k - 1), caps, k);
    }
  }

  lemma {:induction false} ExpandNothing(ps: seq<Piece>, caps: seq<string>, rc: nat)
    requires WellFormed(ps) && rc <= 1 && rc <= |caps|
    ensures Expand(ps, caps, rc) == Flatten(ps)
    decreases |ps|
  {
    if ps != [] {
      var tail := ps[1..];
      assert WellFormed(tail) by {
        forall m | 0 <= m < |tail| ensures match tail[m] case Lit(text) => '$' !in text case Hole(index) => index <= 9 {
          assert tail[m] == ps[m + 1];
        }
      }
      ExpandNothing(tail, caps, rc);
    }
  }

  /**
   * `replaceWithRegexp` renders the template as intended: every `$i` with
   * 1 <= i < rc becomes capture i, every other placeholder and all literal
   * text stay in place, including what follows the last placeholder. This
   * holds when the captures themselves hold no `$`, since the loop re-scans
   * text inserted for earlier indices.
   */
  lemma {:induction false} SubstituteExpands(ps: seq<Piece>, caps: seq<string>, rc: nat)
    requires WellFormed(ps) && rc <= |caps| && rc <= MaxPairs
    requires forall j :: 1 <= j < rc ==> '$' !in caps[j]
    ensures Substitute(Flatten(ps), caps, rc) == Expand(ps, caps, rc)
    decreases rc
  {
    if rc <= 1 {
      ExpandNothing(ps, caps, rc);
    } else {
      SubstituteExpands(ps, caps, rc - 1);
      ExpandStep(ps, caps, rc);
    }
  }

  /**
   * The rendering the templates evidently intend: one pass over the
   * template, in which each `$i` with 1 <= i < rc becomes capture `i`
   * verbatim and every other character is copied. Unlike the loop of
   * `replaceWithRegexp`, text taken from a capture is never scanned again.
   */
  function Render(t: string, caps: seq<string>, rc: nat): (out: string)
    requires rc <= |caps|
    ensures '$' !in t ==> out == t
    decreases |t|
  {
    if t == [] then ""
    else if 2 <= |t| && t[0] == '$' && '1' <= t[1] <= '9' && t[1] as int - '0' as int < rc then
      caps[t[1] as int - '0' as int] + Render(t[2..], caps, rc)
    else
      assert forall c :: c in t[1..] ==> c in t;
      [t[0]] + Render(t[1..], caps, rc)
  }

  /** Literal text without `$` is copied through by `Render`. */
  lemma {:induction false} RenderLiteral(lit: string, s: string, caps: seq<string>, rc: nat)
    requires rc <= |caps| && '$' !in lit
    ensures Render(lit + s, caps, rc) == lit + Render(s, caps, rc)
    decreases |lit|
  {
    if lit == [] {
      assert lit + s == s;
    } else {
      var t, u := lit + s, lit[1..];
      assert t[0] == lit[0] && t[0] != '$';
      assert t[1..] == u + s;
      assert '$' !in u by {
        assert forall c :: c in u ==> c in lit;
      }
      RenderLiteral(u, s, caps, rc);
      calc {
        Render(t, caps, rc);
        [t[0]] + Render(t[1..], caps, rc);
        [lit[0]] + (u + Render(s, caps, rc));
        { AppendAssoc([lit[0]], u, Render(s, caps, rc)); assert [lit[0]] + u == lit; }
        lit + Render(s, caps, rc);
      }
    }
  }

  /** `Render` turns the placeholder `$i` into capture `i` when 1 <= i < rc and keeps it otherwise. */
  lemma RenderToken(i: nat, s: string, caps: seq<string>, rc: nat)
    requires i <= 9 && rc <= |caps|
    ensures Render(Token(i) + s, caps, rc) == (if 1 <= i < rc then caps[i] else Token(i)) + Render(s, caps, rc)
  {
    var t, d := Token(i) + s, Digit(i);
    assert t[0] == '$' && t[1] == d && d as int - '0' as int == i;
    if 1 <= i < rc {
      assert t[2..] == s;
    } else {
      assert t[1..] == [d] + s;
      RenderLiteral([d], s, caps, rc);
      calc {
        Render(t, caps, rc);
        [t[0]] + Render([d] + s, caps, rc);
        ['$'] + ([d] + Render(s, caps, rc));
        { AppendAssoc(['$'], [d], Render(s, caps, rc)); }
        Token(i) + Render(s, caps, rc);
      }
    }
  }

  /** `Render` is the reference `Expand` on every well-formed template, whatever the captures hold. */
  lemma {:induction false} RenderFlatten(ps: seq<Piece>, caps: seq<string>, rc: nat)
    requires WellFormed(ps) && rc <= |caps|
    ensures Render(Flatten(ps), caps, rc) == Expand(ps, caps, rc)
    decreases |ps|
  {
    if ps == [] {
    } else {
      var tail := ps[1..];
      assert WellFormed(tail) by {
        forall m | 0 <= m < |tail| ensures match tail[m] case Lit(text) => '$' !in text case Hole(index) => index <= 9 {
          assert tail[m] == ps[m + 1];
        }
      }
      RenderFlatten(tail, caps, rc);
      match ps[0]
      case Lit(text) =>
        RenderLiteral(text, Flatten(tail), caps, rc);
      case Hole(index) =>
        RenderToken(index, Flatten(tail), caps, rc);
    }
  }

  /** Where the captures hold no `$`, the loop of `replaceWithRegexp` and `Render` agree. */
  lemma RenderMatchesLoop(ps: seq<Piece>, caps: seq<string>, rc: nat)
    requires WellFormed(ps) && rc <= |caps| && rc <= MaxPairs
    requires forall j :: 1 <= j < rc ==> '$' !in caps[j]
    ensures Substitute(Flatten(ps), caps, rc) == Render(Flatten(ps), caps, rc)
  {
    SubstituteExpands(ps, caps, rc);
    RenderFlatten(ps, caps, rc);
  }

  /**
   * The loop re-scans inserted text: for the template `$1` with capture 1
   * equal to `$2` and capture 2 equal to `y`, it yields `y`, where inserting
   * capture 1 verbatim yields `$2`.
   */
  lemma SubstituteRescansCapture()
    ensures Substitute("$1", ["w", "$2", "y"], 3) == "y"
    ensures Render("$1", ["w", "$2", "y"], 3) == "$2"
  {
    var caps := ["w", "$2", "y"];
    assert Token(1) == "$1" && Token(2) == "$2";
    ReplaceAllToken(1, "", "$2");
    ReplaceAllToken(2, "", "y");
    assert Substitute("$1", caps, 2) == "$2" by {
      assert Token(1) + "" == "$1" && "$2" + ReplaceAll("", Token(1), "$2") == "$2";
    }
    assert Token(2) + "" == "$2" && "y" + ReplaceAll("", Token(2), "y") == "y";
    RenderToken(1, "", caps, 3);
  }

  /**
   * `replace` as written: it keeps only the template text before the first
   * match of the token, appends the value and drops everything after it; and
   * a template without the token becomes "".
   */
  function ReplaceAsWritten(s: string, tok: string, v: string): string
  {
    if Contains(s, tok) then s[..Find(s, tok)] + v else ""
  }

  /**
   * `replace` as written loses the template text after the placeholder: for
   * `<pre>$1<post>` it gives `<pre><v>` where replacing gives `<pre><v><post>`.
   */
  lemma ReplaceAsWrittenTruncates(pre: string, post: string, v: string)
    requires '$' !in pre && '$' !in post
    ensures ReplaceAsWritten(pre + "$1" + post, "$1", v) == pre + v
    ensures ReplaceAll(pre + "$1" + post, "$1", v) == pre + v + post
  {
    var t := pre + "$1" + post;
    assert Token(1) == "$1";
    assert t == pre + ("$1" + post);
    FindAfterLiteral(pre, "$1" + post, "$1");
    assert t[..|pre|] == pre;
    ReplaceAllLiteral(pre, "$1" + post, "$1", v);
    ReplaceAllToken(1, post, v);
    NotContainsWithoutFirstChar(post, "$1");
    ReplaceAllAbsent(post, "$1", v);
    AppendAssoc(pre, v, post);
  }

  /** The template `/a/$1/b` with value `x`: `/a/x` as written, `/a/x/b` as intended. */
  lemma ReplaceAsWrittenCounterexample()
    ensures ReplaceAsWritten("/a/$1/b", "$1", "x") == "/a/x"
    ensures ReplaceAll("/a/$1/b", "$1", "x") == "/a/x/b"
  {
    var pre, post: string := "/a/", "/b";
    assert '$' !in pre && '$' !in post;
    assert pre + "$1" + post == "/a/$1/b";
    ReplaceAsWrittenTruncates(pre, post, "x");
    assert pre + "x" == "/a/x" && pre + "x" + post == "/a/x/b";
  }

  /** `replace` as written turns a template without the placeholder into "". */
  lemma ReplaceAsWrittenDropsPlainTemplate()
    ensures ReplaceAsWritten("/fixed", "$1", "x") == ""
    ensures ReplaceAll("/fixed", "$1", "x") == "/fixed"
  {
    NotContainsWithoutFirstChar("/fixed", "$1");
    ReplaceAllAbsent("/fixed", "$1", "x");
  }
}

=== FILE: tfc_types.dfy ===
/**
 * The data model of src/XrdCmsTfc.hh: the status codes, the `Rule` record,
 * the `Rules` and `ProtocolRules` containers, the attributes of a rule
 * element in the configuration document, and the PCRE capability the
 * catalog calls.
 */
module TfcTypes {

  datatype Option<+T> = None | Some(value: T)

  /** The `XRDCMSTFC_*` return codes. */
  datatype Status = Ok | ErrParseRule | ErrUrl | ErrFile | ErrNoPfn2Lfn | ErrNoLfn2Pfn
  {
    /** The integer the C++ interface returns for this status. */
    function Code(): (c: int)
      ensures 0 <= c <= 5
      ensures c == 0 <==> this == Ok
    {
      match this
      case Ok => 0
      case ErrParseRule => 1
      case ErrUrl => 2
      case ErrFile => 3
      case ErrNoPfn2Lfn => 4
      case ErrNoLfn2Pfn => 5
    }
  }

  /** Distinct statuses are reported as distinct integers. */
  lemma CodesDistinct(a: Status, b: Status)
    ensures a.Code() == b.Code() <==> a == b
  {
  }

  /** Size of the `int` vector handed to `pcre_exec` (`OVECCOUNT`). */
  const OVecCount: nat := 30

  /**
   * Number of substring pairs `pcre_exec` can report in that vector: it keeps
   * the last third as workspace, so the whole match plus at most 9 groups.
   */
  const MaxPairs: nat := OVecCount / 3

  /**
   * The PCRE library, taken as a given capability: `compiles(p)` says whether
   * `pcre_compile` accepts pattern `p`, and `exec(p, s)` is the result of
   * matching `s` against `p`: None when it does not match, otherwise the
   * matched substrings, the whole match first and then each group in order.
   * A compiled `pcre *` is represented by its pattern text.
   */
  datatype Pcre = Pcre(compiles: string -> bool, exec: (string, string) -> Option<seq<string>>)
  {
    /**
     * The value `pcre_exec` returns for a vector of `OVecCount` ints: negative
     * when there is no match, the number of pairs it stored when they fit,
     * and 0 when the match has more pairs than the vector holds.
     */
    function ExecCode(pattern: string, subject: string): (rc: int)
      ensures rc < 0 <==> exec(pattern, subject).None?
      ensures rc > 0 ==> rc <= MaxPairs && rc == |exec(pattern, subject).value|
    {
      match exec(pattern, subject)
      case None => -1
      case Some(caps) => if 1 <= |caps| <= MaxPairs then |caps| else 0
    }
  }

  /**
   * `Rule`: a path pattern, a destination pattern, a result template and the
   * protocol to chain into, where "" means no chain. The `pathMatchStr` and
   * `destinationMatchStr` members are never assigned by the catalog and are
   * not modelled.
   */
  datatype Rule = Rule(pathMatch: string, destinationMatch: string, result: string, chain: string)

  /** `ProtocolRules`: each protocol name maps to one ordered list of rules (`Rules`). */
  type ProtocolRules = map<string, seq<Rule>>

  /** The rules kept under `protocol`; an absent protocol has none. */
  function RulesFor(rules: ProtocolRules, protocol: string): seq<Rule>
  {
    if protocol in rules then rules[protocol] else []
  }

  /**
   * The attributes of one `lfn-to-pfn` or `pfn-to-lfn` element, as
   * `getAttribute` returns them: an attribute that is absent reads as "".
   */
  datatype RuleElement = RuleElement(
    protocol: string,
    destinationMatch: string,
    pathMatch: string,
    result: string,
    chain: string)

  /** An already-parsed storage-mapping document: its two kinds of rule elements, each in document order. */
  datatype Document = Document(lfnToPfn: seq<RuleElement>, pfnToLfn: seq<RuleElement>)
}
